=== FILE: README.md ===
# download-artifact, modelled in Dafny

A GitHub Action (bffless/download-artifact) that downloads one deployment's files from an artifact API. It runs in three steps:

1. It reads its inputs: the API, the key, the source path, and one of alias, commit SHA or branch.
2. It prepares the output directory and asks the API for the file manifest.
3. It downloads the files, ten at a time and with up to three attempts each. It uses presigned storage URLs when the storage supports them; otherwise the API proxies each file.

The run fails when more files failed than succeeded. It can also write a Markdown step summary.

The model has one module per part of the program:

- `Transfer` (`transfer.dfy`): one transfer at a time. It covers:
  - the presigned download with its redirect chain;
  - the proxied download, including how its request is composed;
  - the JSON POST that fetches the manifest.

  The network is replaced by the responses it would produce, given as data. The output file is reduced to a flag that says whether it is on disk afterwards.
- `Batch` (`batch.dfy`): the batch executor behind `downloadFilesWithPresignedUrls` and `downloadFilesDirect`. It is modelled once, with the transfer as an oracle `outcome(file, attempt)`. It covers:
  - the window loop and the retry loop, as methods with loop invariants;
  - the backoff delays, as values;
  - recovering a failed file's path from its error text (`/for (.+?):/`);
  - the progress test.
- `Download` (`download.dfy`): `downloadArtifacts`. The output directory is a class whose fields the run changes, and the run is proved against specification functions.
- `Inputs` (`inputs.dfy`): `getInputs`, a pure function from the runner's inputs to the run configuration.
- `Summary` (`summary.dfy`): `writeSummary`. The rows are pushed one by one, and the rendered text is returned instead of being written.
- `Base`, `Text` and `Types` hold the wrappers and the string operations the source relies on: decimal rendering, `toLowerCase`, `substring` and `join`. `Text.Split` is not used by the source; it only serves to state the line structure of the texts the source builds. They also hold the record types of `dist/types.d.ts`.

Three behaviours of the code that the model keeps as they are:

- Redirects: the code follows 301/302 redirects without a depth limit, and so does the model; no cap is invented. The model follows redirects for as long as responses are given.
- Order: both result lists keep input order (`Batch.ListsConcat`).
- Zero attempts: with `retries` 0 and at least one file, the code throws from inside the executor; with no files it returns empty lists. The model returns that error (`Batch.DownloadFiles`) rather than forbidding the case. The run itself always passes 3.

## Model

| member | source | states |
|---|---|---|
| Transfer.FinalOutcome | src/api.ts:65-92 | A response that is not followed settles Ok exactly when its status is 2xx and piping the body finishes. Any other status rejects with `Download failed: HTTP <status>`; a failed request or stream rejects with its own message. |
| Transfer.FinalHop | src/api.ts:52-63 | The chain ends at the first response that is not a 301/302 with a Location; every response before it is such a redirect. |
| Transfer.DownloadFromPresignedUrl | src/api.ts:37-94 | The URLs requested are the start URL, then the Location of each redirect followed, in order. The outcome is that of the first response not followed. The output file remains exactly when the download succeeded, or while it is still unsettled. |
| Transfer.PresignedFailureMessage | src/api.ts:65-92 | A failed presigned download carries its own HTTP message, or the message of a failed request or stream. |
| Transfer.SetParam | src/api.ts:108-111 | `searchParams.set`: afterwards the name has the new value and no other value. The parameters with other names keep their order and multiplicity. A name not yet present is appended. |
| Transfer.SetParamOnce | src/api.ts:108-111 | When the name is already present, exactly one parameter of that name remains afterwards. |
| Transfer.SetParamFirst | src/api.ts:108-111 | When the name is already present, the parameters before its first occurrence are unchanged and that occurrence takes the new value in its place. |
| Transfer.DirectQuery | src/api.ts:108-111 | The proxied query starts with the repository, holds at most four parameters, and every resolver in it has a non-empty value. |
| Transfer.DirectQueryKeys | src/api.ts:108-111 | The proxied query names `repository` first, then each resolver that is set, in the order alias, commitSha, branch. |
| Transfer.DirectQueryLookup | src/api.ts:108-111 | A lookup in the proxied query finds the repository, finds each resolver exactly when it is non-empty, and finds nothing else, so never the API key. |
| Transfer.SetResolver | src/api.ts:109-111 | Setting an optional parameter that is not there yet appends it exactly when it is non-empty. |
| Transfer.BuildDirectRequest | src/api.ts:106-128 | The request goes to `/api/files/<path>`, resolved against the API URL. Its query is the proxied query built step by step, and its only header is `X-API-Key`. |
| Transfer.DownloadFileDirect | src/api.ts:129-158 | A proxied download settles Ok exactly on a 2xx whose body finishes. A non-2xx status rejects with `Download failed for <path>: HTTP <status>`, a network failure with `Download failed for <path>: <message>`, and a stream error with its own message. The file remains exactly on success. |
| Transfer.ConcatAppend | src/api.ts:310-313 | The body of two chunk lists received one after the other is the two bodies concatenated. |
| Transfer.ConcatSplit | src/api.ts:310-313 | Every chunk appears in the body in its place: the chunks received before it, then the chunk, then the chunks received after it. |
| Transfer.ClassifyResponse | src/api.ts:313-332 | The result is the parsed value exactly on a 2xx that parses. A 2xx that does not parse quotes the body's first 200 characters. Any other status gives the status and the body's first 500 characters. |
| Transfer.ApiOutcome | src/api.ts:309-337 | A failed request rejects with its own message. A reply resolves exactly when it is a 2xx whose joined body parses, and then to the parsed value. |
| Transfer.ErrorQuotesBoundedBody | src/api.ts:320-331 | Every error `postJson` raises on a received response is its lead text followed by a prefix of the body of at most 500 characters. A failed request carries no body and is not covered here. |
| Transfer.PostJson | src/api.ts:294-341 | Collecting the chunks in a loop and classifying the response gives the reply's outcome. A failed request rejects with its own message. |
| Transfer.RequestPrepareBatchDownload | src/api.ts:16-32 | The manifest request is one POST of the request to `/api/deployments/prepare-batch-download`, resolved against the API URL, with the JSON content type and the `X-API-Key` header, and no retry. Its result is the POST's outcome. |
| Batch.FirstOk | src/api.ts:183-187 | The attempt that succeeds is the first attempt that succeeds: every earlier attempt failed. With none, every allowed attempt failed. |
| Batch.Settle | src/api.ts:181-198 | A file's task resolves to its own path, or rejects with the message of its last attempt. With no attempt allowed it rejects with `undefined`. |
| Batch.SettleFulfilled | src/api.ts:183-187 | A task resolves exactly when one of its allowed attempts succeeds. |
| Batch.AttemptLogShape | src/api.ts:183-196 | At most `retries` attempts are made, and at least one when any is allowed. They stop at the first success. Delay k is 2^k·1000 ms; there is one fewer delay than attempts, so none follows the last attempt. |
| Batch.BackoffTotal | src/api.ts:190-194 | The delays after attempts 0 .. k−1 add up to (2^k − 1)·1000 ms. |
| Batch.AlwaysFailingWait | src/api.ts:190-194 | A file that fails every attempt waits (2^(retries−1) − 1)·1000 ms in all. |
| Batch.RetryFile | src/api.ts:179-199 | The retry loop, with `lastError` and the sleeps, settles as `Settle` and makes the attempts `AttemptLog` describes. |
| Batch.ExtractPath | src/api.ts:206-207 | The recorded path is never empty: it is the lazy capture of `for (.+?):`, or `unknown` when nothing matches. |
| Batch.NoMatchWithoutFo | src/api.ts:206-207 | An error text that contains no "fo" has no match. |
| Batch.PresignedHttpErrorPath | src/api.ts:74 | A presigned HTTP error names no file, so its failure is recorded under `unknown`. |
| Batch.DirectErrorPath | src/api.ts:139 | A proxied error recovers its file path whole, when the path is non-empty and contains no `:` and no line terminator. |
| Batch.SettleAll | src/api.ts:178-200 | `Promise.allSettled` gives one result per file, in the files' order. |
| Batch.WindowSlices | src/api.ts:176 | The results and attempt logs of a window are the slice of those of the whole list. |
| Batch.EveryFileCounted | src/api.ts:175-213 | With at least one attempt, the lengths of the success and failure lists add up to the number of files. |
| Batch.CountedUpTo | src/api.ts:202-216 | After the first k files have been folded, exactly k files have been counted as a success or a failure. |
| Batch.Record | src/api.ts:205-211 | A failure record carries the path recovered from the message, which is never empty. Its error is the message itself, or `Unknown error` when the message is empty, so it is never empty either. |
| Batch.SuccessMembership | src/api.ts:202-204 | A path is among the successes exactly when some file with that path has an allowed attempt that succeeds. |
| Batch.FailureMembership | src/api.ts:205-211 | A record is among the failures exactly when some file's task rejected and the record is its last message with the path recovered from it. |
| Batch.ListsConcat | src/api.ts:202-213 | Both lists keep input order: the lists of a concatenation are those of the first part followed by those of the second. |
| Batch.WindowsWithin | src/api.ts:175-176 | The windows are non-empty, lie within the list, exist exactly when the list is non-empty, and the last one ends at the list's end. |
| Batch.WindowBounds | src/api.ts:175-176 | Window k covers the indices k·c up to min((k+1)·c, n). |
| Batch.WindowsOrdered | src/api.ts:175-176 | Each window ends at or before the start of every later window. |
| Batch.WindowExists | src/api.ts:175-176 | Every index of the list lies in some window. |
| Batch.WindowCover | src/api.ts:175-176 | Every index of the list lies in exactly one window. |
| Batch.ReportedMembership | src/api.ts:215-219 | A count is reported exactly when some window ends at it and it is a multiple of 100 or the total. |
| Batch.LastReportIsTotal | src/api.ts:215-219 | A non-empty list always ends with a report of the total. |
| Batch.SettleWindow | src/api.ts:178-200 | Running a window's tasks gives their results and attempt logs in the window's order. |
| Batch.FoldWindow | src/api.ts:202-213 | Folding a window's results appends its successes and its failure records, in order. It fails exactly when a result rejected with `undefined`. |
| Batch.CloseWindow | src/api.ts:215-219 | After a window, progress is reported exactly when the completed count passes the test. |
| Batch.WindowFold | src/api.ts:202-213 | The lists built before a window, followed by that window's lists, are the lists up to the window's end. |
| Batch.RunWindow | src/api.ts:176-213 | One window advances the lists from its start to its end, and counts every file in it. It fails exactly when no attempt is allowed. |
| Batch.DownloadFiles | src/api.ts:165-223 | The executor: with at least one attempt, `success` holds the successful files' paths and `failed` the failure records, both in input order, and together they count every file. It visits exactly the windows of the list and reports the progress the test selects. With zero attempts on a non-empty list it rejects with the TypeError of reading `undefined.message`. |
| Batch.DownloadFilesWithPresignedUrls | src/api.ts:165-223 | The executor over presigned URLs, with the same lists and count, the same windows of `concurrency` files, the same attempts and the same progress reports. |
| Batch.DownloadFilesDirect | src/api.ts:228-289 | The executor over proxied downloads with the run's deployment parameters, with the same lists, count, windows, attempts and progress reports. |
| Download.OutputDir.RemoveRecursive | src/download.ts:26-29 | After removal the directory no longer exists and holds nothing. |
| Download.OutputDir.MakeDirRecursive | src/download.ts:33 | Afterwards the directory exists; an existing directory keeps its entries. |
| Download.TotalSizeConcat | src/download.ts:63 | The total size of a concatenation is the sum of the two totals. |
| Download.TotalSize | src/download.ts:63 | Every file's size counts towards the total, and the total is zero exactly when every file is empty. |
| Download.Chosen | src/download.ts:67-93 | The presigned executor runs exactly when the storage supports presigned URLs. Otherwise the proxied executor runs with the inputs' repository, alias, commit SHA and branch. |
| Download.FailureWarning | src/download.ts:95-102 | The failure warning starts with the header line giving the number of failures. |
| Download.Warnings | src/download.ts:95-102 | A run emits one warning exactly when some file failed, and that warning is the failure warning; otherwise it emits none. |
| Download.TenAtATime | src/download.ts:67-93 | The executor of a run visits the files in windows of ten, window k holding files 10k up to 10k+10 or the end of the list. It makes one to three attempts on every file, and its last progress report is the total. |
| Download.Conclude | src/download.ts:104-118 | The run fails exactly when more files failed than succeeded, with `Too many download failures: F/N` where N is the manifest's file count. Otherwise it returns the manifest's commit, the successes as files and their number as the count, and the sizes of all manifest files as the total, whichever transfers failed. |
| Download.ThresholdIsMajority | src/download.ts:95-108 | Every manifest file ends up in exactly one list, so the run fails on the threshold exactly when more than half its files failed. |
| Download.ReturnedFiles | src/download.ts:113-118 | A successful run returns exactly the paths of the manifest files that one of their three attempts downloaded. |
| Download.WarningLines | src/download.ts:95-102 | The failure warning is a header line with the count, followed by one `  - path: error` line for each of the first ten failures and no more. |
| Download.TransferManifest | src/download.ts:50-118 | For an empty manifest the run returns an empty result and the warning `No files found to download`, and transfers nothing. Otherwise it runs the executor the storage flag selects, and returns its log: the windows of 10 files, the attempts with at most 3 per file, and the progress reports. The warnings are emitted only when some file failed, and the run ends as `Conclude` says. |
| Download.DownloadArtifacts | src/download.ts:14-119 | A non-empty directory without overwrite fails the run before anything is touched or requested. Otherwise the directory exists and is empty when the manifest request is sent. That request goes to the inputs' API URL and carries the inputs' repository, source path and resolvers, and the API key in its header. A manifest error fails the run; otherwise the run finishes as `TransferManifest` says. |
| Inputs.GetRequired | src/inputs.ts:6-10 | A required input is returned as given, and an empty one fails with `Input required and not supplied: <name>`. |
| Inputs.OrUndefined | src/inputs.ts:13-15 | An empty input becomes undefined, and a non-empty one is kept verbatim. |
| Inputs.ParseOverwrite | src/inputs.ts:30-31 | `overwrite` is on exactly when the input spells `true` in any letter case, and it is off by default. |
| Inputs.ParseSummary | src/inputs.ts:33-34 | `summary` is off exactly when the input spells `false` in any letter case, and it is on by default. |
| Inputs.GetInputs | src/inputs.ts:5-48 | Reading the inputs fails exactly when a required input is empty or when alias, commit-sha and branch are all empty. |
| Inputs.InputErrors | src/inputs.ts:6-21 | The errors come in reading order: api-url, api-key, source-path, then the resolver requirement with its message. |
| Inputs.Resolvers | src/inputs.ts:13-21 | Each resolver is kept verbatim when given and undefined when empty. Any combination is accepted, as long as one is set. |
| Inputs.Defaults | src/inputs.ts:24-47 | The required inputs pass through unchanged. The output path falls back to the source path, and the repository to the workflow context's `owner/repo`. |
| Inputs.Flags | src/inputs.ts:30-34 | The configuration's flags read their inputs case-insensitively. |
| Summary.ZeroBytes | src/summary.ts:46 | A total size of zero reads `0 B`. |
| Summary.Rows | src/summary.ts:12-27 | The table has six rows, plus one for an alias and one for a branch when they are given, and no two rows share a property name. |
| Summary.Content | src/summary.ts:29-38 | The text starts with the `## Download Summary` heading and an empty line, and ends with a newline. |
| Summary.WriteSummary | src/summary.ts:4-43 | Nothing is produced exactly when the summary is switched off. Otherwise the text is the table of the pushed rows. |
| Summary.RowKeys | src/summary.ts:12-27 | The rows come in the order Repository, Source Path, Output Path, Commit SHA, [Alias], [Branch], Files, Total Size. There is never a row for the commit-sha input. |
| Summary.AliasRow | src/summary.ts:19-21 | There is an Alias row exactly when an alias is given, and it shows that alias. |
| Summary.BranchRow | src/summary.ts:22-24 | There is a Branch row exactly when a branch is given, and it shows that branch. |
| Summary.ValueRows | src/summary.ts:16-27 | The Commit SHA value is the run's commit in backticks. The Files value is decimal digits that read back as the file count. The last row is the formatted total size. |
| Summary.ContentLines | src/summary.ts:29-38 | The text's lines are, in order: the `## Download Summary` heading, an empty line, the table head and rule, one table line per row (the key in bold, then the value), and the empty piece after the final newline. |

## Left out

- `Transfer.FinalOutcome`, `Transfer.DownloadFileDirect`: a response stream that breaks off after a 2xx settles neither way in the source. Nothing listens on the response, `pipe` does not pass its errors on to the file, and there is no time-out, so the window and the whole run wait forever. The model gives every 2xx a body that either finishes or fails with a file error, so every transfer settles.
- Real HTTP, streams and the filesystem: requests are answered by responses given as data, `JSON.parse` is a parameter, and bodies arrive as strings. UTF-8 decoding, the `Content-Length` header and `JSON.stringify` are not modelled.
- `Download.DownloadArtifacts`: the transfers are per-attempt outcome oracles (`presigned(url, attempt)`, `direct(params, path, attempt)`). They are not derived from `Transfer.DownloadFromPresignedUrl` and `Transfer.DownloadFileDirect`, which are modelled separately, one transfer at a time. The files written under the output directory are not tracked; the directory is reduced to whether it exists and how many entries it holds.
- Concurrency: `Promise.allSettled` is modelled as a sequential fold in window order. That order is the order in which the source collects the results. The `setTimeout` sleeps are returned as delay values.
- `path.resolve` and `path.join`: `OutputDir.path` is the already resolved directory, and the per-file output paths are not modelled.
- WHATWG URL resolution and percent-encoding: a request path is `/api/files/` followed by the file path, and a query is an ordered list of name/value pairs.
- `Transfer.DownloadFromPresignedUrl`: a relative `Location` is followed as given. The source passes it to `new URL(...)`, which throws `Invalid URL` for a relative reference (RFC 9110 section 10.2.2 allows them), so the source rejects the transfer where the model requests the Location.
- `Transfer.ClassifyResponse`: `substring(0, 200)` and `substring(0, 500)` count UTF-16 code units, while a Dafny string counts Unicode scalar values. On a body with characters outside the Basic Multilingual Plane (an emoji, say) the source quotes fewer characters and may cut a surrogate pair in half; the model quotes 200 or 500 whole characters.
- `Download.DownloadArtifacts`: the manifest's shape is not checked. The source casts whatever `JSON.parse` returns, so a 2xx body such as `{}` makes `prepareResponse.files.length` throw a TypeError. The model's `parse` yields either a well-formed manifest or no value, which becomes the `Failed to parse response` error.
- `Transfer.DownloadFromPresignedUrl`: the redirect chain is followed over a finite list of responses. When the list runs out during a redirect, the download is reported unsettled (`outcome` None). The source has no depth limit, so none is invented.
- Logging: `core.info`, `core.setSecret`, `core.setOutput` and the summary file write are left out. The warnings `downloadArtifacts` emits are returned in its trace, and the summary text is returned.
- `formatBytes`: only the zero case is modelled. The scaled text of a non-zero size depends on `Math.log`, `Math.pow` and `toFixed` floating point, so it is a parameter.
- `Inputs.GetInputs`: `@actions/core` trims whitespace from input values and finds them under `INPUT_<NAME>` environment variables. Neither is modelled; the map holds each input's value under its own name.
- `Inputs.ParseOverwrite`: `toLowerCase` is modelled on ASCII letters only. No other character lower-cases to a letter of `true` or `false`, so the comparisons are unaffected.
- src/context.ts: the repository named by the workflow context is a parameter of `Inputs.GetInputs`.
- src/index.ts (process exit and outputs) is not part of this model.
- `Batch.DownloadFiles`: `concurrency >= 1` is required, because with 0 the source's window loop never advances.

=== FILE: base.dfy ===
/** Option and Result, the failure-compatible wrappers the model uses for
    JavaScript's `undefined` and for thrown errors, and a minimum on naturals. */
module Base {

  datatype Option<+T> = None | Some(value: T)

  /** A value, or the message of the error the source throws instead. */
  datatype Result<+T, +E> = Success(value: T) | Failure(error: E)

  function Min(a: nat, b: nat): (m: nat)
    ensures m <= a && m <= b && (m == a || m == b)
  {
    if a <= b then a else b
  }
}

=== FILE: batch.dfy ===
/** The batch executor of src/api.ts (`downloadFilesWithPresignedUrls` and
    `downloadFilesDirect`, which differ only in the transfer they call).
    Files are taken in consecutive windows of `concurrency`; every file of a
    window is tried up to `retries` times with exponential backoff; the
    settled results of a window are folded, in order, into `success` and
    `failed`; progress is reported after each window.

    The transfer is an oracle: `outcome(file, attempt)` is how attempt number
    `attempt` (from 0) on `file` settles. `Promise.allSettled` yields its
    results in input order and the retry loops of different files share
    nothing, so folding the files one after another gives the lists the
    concurrent code gives. Sleeps become the delays they would last. */
module Batch {
  import opened Base
  import opened Text
  import opened Types
  import opened Transfer

  /** A file that could not be downloaded: the path recovered from the error
      text and the error text itself. */
  datatype FailedFile = FailedFile(path: string, error: string)

  datatype BatchResult = BatchResult(success: seq<string>, failed: seq<FailedFile>)

  /** How the task of one file settles: fulfilled with the file's path, or
      rejected with the message of the last attempt's error; None is the
      `undefined` that is thrown when no attempt ran. */
  datatype Settled = Fulfilled(value: string) | Rejected(reason: Option<string>)

  /** The attempts made on one file and the delays, in milliseconds, slept
      between them. */
  datatype Attempts = Attempts(count: nat, delays: seq<nat>)

  /** The files `files.slice(lo, hi)` of one window. */
  datatype Window = Window(lo: nat, hi: nat)

  /** What the executor did besides its result: the windows in the order they
      ran, the attempts on each file in input order, and the completed counts
      it reported as progress. */
  datatype Log = Log(windows: seq<Window>, attempts: seq<Attempts>, progress: seq<nat>)

  type Oracle = (FileInfo, nat) -> Outcome

  // ---------------------------------------------------------------------
  // Retry and backoff of one file

  function Pow2(n: nat): (p: nat)
    ensures p >= 1
  {
    if n == 0 then 1 else 2 * Pow2(n - 1)
  }

  /** `Math.pow(2, attempt) * 1000`: the sleep after failed attempt `attempt`. */
  function Delay(attempt: nat): nat {
    Pow2(attempt) * 1000
  }

  /** The delays slept after failed attempts 0 .. k - 1. */
  function Backoff(k: nat): seq<nat> {
    seq(k, a requires 0 <= a => Delay(a))
  }

  function Sum(xs: seq<nat>): nat
    decreases |xs|
  {
    if xs == [] then 0 else Sum(xs[..|xs| - 1]) + xs[|xs| - 1]
  }

  /** Backing off after attempts 0 .. k - 1 sleeps (2^k - 1) seconds in all. */
  lemma {:induction false} BackoffTotal(k: nat)
    ensures Sum(Backoff(k)) == (Pow2(k) - 1) * 1000
  {
    if k > 0 {
      assert Backoff(k)[..k - 1] == Backoff(k - 1);
      BackoffTotal(k - 1);
    }
  }

  /** The first attempt in from .. retries - 1 that succeeds, if any. */
  function FirstOk(outcome: Oracle, f: FileInfo, from: nat, retries: nat): (k: Option<nat>)
    ensures k.Some? ==> from <= k.value < retries && outcome(f, k.value).Ok?
    ensures k.Some? ==> forall a :: from <= a < k.value ==> outcome(f, a).Err?
    ensures k.None? ==> forall a :: from <= a < retries ==> outcome(f, a).Err?
    decreases retries - from
  {
    if from >= retries then None
    else if outcome(f, from).Ok? then Some(from)
    else FirstOk(outcome, f, from + 1, retries)
  }

  /** How the task of file f settles with `retries` attempts allowed. */
  function Settle(f: FileInfo, retries: nat, outcome: Oracle): (s: Settled)
    ensures s.Fulfilled? ==> s.value == f.path
    ensures s.Rejected? && retries > 0 ==> outcome(f, retries - 1).Err? && s.reason == Some(outcome(f, retries - 1).message)
    ensures s.Rejected? && retries == 0 ==> s.reason.None?
  {
    match FirstOk(outcome, f, 0, retries)
    case Some(_) => Fulfilled(f.path)
    case None => Rejected(if retries == 0 then None else Some(outcome(f, retries - 1).message))
  }

  /** A file's task is fulfilled exactly when one of its allowed attempts succeeds. */
  lemma SettleFulfilled(f: FileInfo, retries: nat, outcome: Oracle)
    ensures Settle(f, retries, outcome).Fulfilled? <==> exists a :: 0 <= a < retries && outcome(f, a).Ok?
  {
    var k := FirstOk(outcome, f, 0, retries);
    if k.Some? {
      assert outcome(f, k.value).Ok?;
    }
  }

  /** The attempts made on file f: they stop at the first success and number
      at most `retries`; one delay separates consecutive attempts, none
      follows the last. */
  function AttemptLog(f: FileInfo, retries: nat, outcome: Oracle): Attempts {
    match FirstOk(outcome, f, 0, retries)
    case Some(k) => Attempts(k + 1, Backoff(k))
    case None => Attempts(retries, Backoff(if retries == 0 then 0 else retries - 1))
  }

  /** The attempts stop at the first success and number at most `retries`;
      one delay, doubling each time, separates consecutive attempts, and none
      follows the last. */
  lemma AttemptLogShape(f: FileInfo, retries: nat, outcome: Oracle)
    ensures AttemptLog(f, retries, outcome).count <= retries
    ensures retries > 0 ==> AttemptLog(f, retries, outcome).count >= 1
    ensures forall b :: 0 <= b < AttemptLog(f, retries, outcome).count - 1 ==> outcome(f, b).Err?
    ensures 0 < AttemptLog(f, retries, outcome).count < retries ==>
      outcome(f, AttemptLog(f, retries, outcome).count - 1).Ok?
    ensures AttemptLog(f, retries, outcome).count == retries > 0 ==>
      (outcome(f, retries - 1).Ok? <==> Settle(f, retries, outcome).Fulfilled?)
    ensures |AttemptLog(f, retries, outcome).delays| ==
      (if AttemptLog(f, retries, outcome).count == 0 then 0 else AttemptLog(f, retries, outcome).count - 1)
    ensures forall b :: 0 <= b < |AttemptLog(f, retries, outcome).delays| ==>
      AttemptLog(f, retries, outcome).delays[b] == Delay(b)
  {
  }

  /** A file that fails every attempt sleeps (2^(retries-1) - 1) seconds in all. */
  lemma AlwaysFailingWait(f: FileInfo, retries: nat, outcome: Oracle)
    requires retries >= 1
    requires forall a :: 0 <= a < retries ==> outcome(f, a).Err?
    ensures Sum(AttemptLog(f, retries, outcome).delays) == (Pow2(retries - 1) - 1) * 1000
  {
    assert FirstOk(outcome, f, 0, retries).None?;
    BackoffTotal(retries - 1);
  }

  /** The async task of one file: the retry loop around the transfer. */
  method RetryFile(f: FileInfo, retries: nat, outcome: Oracle) returns (s: Settled, log: Attempts)
    ensures s == Settle(f, retries, outcome)
    ensures log == AttemptLog(f, retries, outcome)
  {
    var lastError: Option<string> := None;
    var delays: seq<nat> := [];
    var attempt := 0;
    while attempt < retries
      invariant 0 <= attempt <= retries
      invariant forall b :: 0 <= b < attempt ==> outcome(f, b).Err?
      invariant lastError == if attempt == 0 then None else Some(outcome(f, attempt - 1).message)
      invariant delays == Backoff(if attempt == retries && attempt > 0 then attempt - 1 else attempt)
    {
      match outcome(f, attempt) {
        case Ok =>
          return Fulfilled(f.path), Attempts(attempt + 1, delays);
        case Err(m) =>
          lastError := Some(m);
          if attempt < retries - 1 {
            delays := delays + [Delay(attempt)];
          }
      }
      attempt := attempt + 1;
    }
    s := Rejected(lastError);
    log := Attempts(retries, delays);
  }

  // ---------------------------------------------------------------------
  // Recovering the path of a failed file from its error text

  /** The characters `.` does not match in a JavaScript regular expression. */
  predicate IsLineTerminator(c: char) {
    c == '\n' || c == '\r' || c == '\U{2028}' || c == '\U{2029}'
  }

  /** The lazy group `(.+?)` followed by `:`, for a group that starts at
      `start` and has been extended up to `j`: the text up to the first ':'
      at or after j, unless a line terminator comes first. */
  function LazyCapture(s: string, start: nat, j: nat): (c: Option<string>)
    requires start < j <= |s|
    ensures c.Some? ==> |c.value| >= 1
    decreases |s| - j
  {
    if j == |s| then None
    else if s[j] == ':' then Some(s[start..j])
    else if IsLineTerminator(s[j]) then None
    else LazyCapture(s, start, j + 1)
  }

  /** The group captured by `/for (.+?):/` when the match starts at position i. */
  function MatchAt(s: string, i: nat): (c: Option<string>)
    ensures c.Some? ==> |c.value| >= 1
  {
    if i + 5 <= |s| && s[i] == 'f' && s[i + 1] == 'o' && s[i + 2] == 'r' && s[i + 3] == ' '
       && !IsLineTerminator(s[i + 4])
    then LazyCapture(s, i + 4, i + 5)
    else None
  }

  /** The group of the leftmost match that starts at or after position i. */
  function FirstMatch(s: string, i: nat): (c: Option<string>)
    ensures c.Some? ==> |c.value| >= 1
    decreases |s| - i
  {
    if i >= |s| then None
    else match MatchAt(s, i)
      case Some(c) => Some(c)
      case None => FirstMatch(s, i + 1)
  }

  /** `message.match(/for (.+?):/)?.[1] || 'unknown'`. */
  function ExtractPath(message: string): (p: string)
    ensures p != ""
  {
    match FirstMatch(message, 0)
    case Some(c) => c
    case None => "unknown"
  }

  /** The entry a rejected task adds to `failed`. */
  function Record(message: string): (r: FailedFile)
    ensures r.path == ExtractPath(message) && r.path != ""
    ensures r.error != ""
    ensures message != "" ==> r.error == message
  {
    FailedFile(ExtractPath(message), if |message| == 0 then "Unknown error" else message)
  }

  /** Positions where no match starts can be skipped. */
  lemma {:induction false} SkipNoMatch(s: string, i: nat, k: nat)
    requires i <= k <= |s|
    requires forall j :: i <= j < k ==> MatchAt(s, j).None?
    ensures FirstMatch(s, i) == FirstMatch(s, k)
    decreases k - i
  {
    if i < k {
      SkipNoMatch(s, i + 1, k);
    }
  }

  /** The lazy group ends at the first ':' when no line terminator precedes it. */
  lemma {:induction false} CaptureUpTo(s: string, start: nat, j: nat, e: nat)
    requires start < j <= e < |s| && s[e] == ':'
    requires forall x :: j <= x < e ==> s[x] != ':' && !IsLineTerminator(s[x])
    ensures LazyCapture(s, start, j) == Some(s[start..e])
    decreases e - j
  {
    if j < e {
      CaptureUpTo(s, start, j + 1, e);
    }
  }

  /** A text where no "fo" occurs has no match. */
  lemma NoMatchWithoutFo(s: string)
    requires forall i :: 0 <= i < |s| - 1 ==> !(s[i] == 'f' && s[i + 1] == 'o')
    ensures FirstMatch(s, 0).None?
  {
    SkipNoMatch(s, 0, |s|);
  }

  /** The presigned transfer's HTTP error names no file: its path is 'unknown'. */
  lemma {:induction false} PresignedHttpErrorPath(status: nat)
    ensures ExtractPath(HttpError(status)) == "unknown"
  {
    var s := HttpError(status);
    var lead := "Download failed: HTTP ";
    var digits := NatToString(status);
    assert s == lead + digits;
    forall i | 0 <= i < |s| - 1
      ensures !(s[i] == 'f' && s[i + 1] == 'o')
    {
      if i < |lead| - 1 {
        assert s[i] == lead[i] && s[i + 1] == lead[i + 1];
      } else {
        assert IsDigit(s[i + 1]);
      }
    }
    NoMatchWithoutFo(s);
  }

  /** A proxied transfer's error names its file: the path comes back whole
      when it is not empty and holds no ':' and no line terminator. */
  lemma {:induction false} DirectErrorPath(filePath: string, detail: string)
    requires filePath != ""
    requires forall x :: 0 <= x < |filePath| ==> filePath[x] != ':' && !IsLineTerminator(filePath[x])
    ensures ExtractPath(DirectError(filePath, detail)) == filePath
  {
    var s := DirectError(filePath, detail);
    var lead := "Download failed for ";
    assert s == lead + filePath + ": " + detail;
    assert s[..20] == lead;
    forall j | 0 <= j < 16
      ensures MatchAt(s, j).None?
    {
      assert s[j] == lead[j] && s[j + 1] == lead[j + 1];
    }
    SkipNoMatch(s, 0, 16);
    assert s[16] == 'f' && s[17] == 'o' && s[18] == 'r' && s[19] == ' ';
    var e := 20 + |filePath|;
    assert s[e] == ':';
    forall x | 21 <= x < e
      ensures s[x] != ':' && !IsLineTerminator(s[x])
    {
      assert s[x] == filePath[x - 20];
    }
    assert s[20] == filePath[0];
    CaptureUpTo(s, 20, 21, e);
    assert s[20..e] == filePath;
  }

  // ---------------------------------------------------------------------
  // The folded lists

  /** The settled results of all files, in input order. */
  function SettleAll(files: seq<FileInfo>, retries: nat, outcome: Oracle): (rs: seq<Settled>)
    ensures |rs| == |files|
    ensures forall j :: 0 <= j < |files| ==> rs[j] == Settle(files[j], retries, outcome)
  {
    seq(|files|, j requires 0 <= j < |files| => Settle(files[j], retries, outcome))
  }

  /** The attempts made on all files, in input order. */
  function AttemptLogs(files: seq<FileInfo>, retries: nat, outcome: Oracle): (logs: seq<Attempts>)
    ensures |logs| == |files|
    ensures forall j :: 0 <= j < |files| ==> logs[j] == AttemptLog(files[j], retries, outcome)
  {
    seq(|files|, j requires 0 <= j < |files| => AttemptLog(files[j], retries, outcome))
  }

  /** The results and attempts of a window are those of its files in the whole list. */
  lemma WindowSlices(files: seq<FileInfo>, lo: nat, hi: nat, retries: nat, outcome: Oracle)
    requires lo <= hi <= |files|
    ensures SettleAll(files[lo..hi], retries, outcome) == SettleAll(files, retries, outcome)[lo..hi]
    ensures AttemptLogs(files[lo..hi], retries, outcome) == AttemptLogs(files, retries, outcome)[lo..hi]
  {
  }

  /** The values of the fulfilled results among rs[..k], in order. */
  function Paths(rs: seq<Settled>, k: nat): seq<string>
    requires k <= |rs|
    decreases k
  {
    if k == 0 then []
    else Paths(rs, k - 1) + (if rs[k - 1].Fulfilled? then [rs[k - 1].value] else [])
  }

  /** The reasons of the rejected results among rs[..k] that carry one, in order. */
  function Reasons(rs: seq<Settled>, k: nat): seq<string>
    requires k <= |rs|
    decreases k
  {
    if k == 0 then []
    else Reasons(rs, k - 1) + (if rs[k - 1].Rejected? && rs[k - 1].reason.Some? then [rs[k - 1].reason.value] else [])
  }

  /** `xs.map(f)`. */
  function Map<A, B>(f: A -> B, xs: seq<A>): (ys: seq<B>)
    ensures |ys| == |xs|
    ensures forall j :: 0 <= j < |xs| ==> ys[j] == f(xs[j])
  {
    seq(|xs|, j requires 0 <= j < |xs| => f(xs[j]))
  }

  lemma MapConcat<A, B>(f: A -> B, xs: seq<A>, ys: seq<A>)
    ensures Map(f, xs + ys) == Map(f, xs) + Map(f, ys)
  {
  }

  /** The paths of the files that settle fulfilled, in input order. */
  function Successes(files: seq<FileInfo>, retries: nat, outcome: Oracle): seq<string> {
    Paths(SettleAll(files, retries, outcome), |files|)
  }

  /** The records of the files that settle rejected, in input order. */
  function Failures(files: seq<FileInfo>, retries: nat, outcome: Oracle): seq<FailedFile> {
    Map(Record, Reasons(SettleAll(files, retries, outcome), |files|))
  }

  /** The lists of the first k results depend on nothing after them. */
  lemma {:induction false} PathsPrefix(rs: seq<Settled>, qs: seq<Settled>, k: nat)
    requires k <= |rs| && k <= |qs|
    requires forall j :: 0 <= j < k ==> rs[j] == qs[j]
    ensures Paths(rs, k) == Paths(qs, k)
    decreases k
  {
    if k > 0 {
      PathsPrefix(rs, qs, k - 1);
    }
  }

  lemma {:induction false} ReasonsPrefix(rs: seq<Settled>, qs: seq<Settled>, k: nat)
    requires k <= |rs| && k <= |qs|
    requires forall j :: 0 <= j < k ==> rs[j] == qs[j]
    ensures Reasons(rs, k) == Reasons(qs, k)
    decreases k
  {
    if k > 0 {
      ReasonsPrefix(rs, qs, k - 1);
    }
  }

  /** Folding a run of results after another gives the successes of both
      runs, one after the other. */
  lemma {:induction false} PathsConcat(rs: seq<Settled>, lo: nat, hi: nat)
    requires lo <= hi <= |rs|
    ensures Paths(rs, hi) == Paths(rs, lo) + Paths(rs[lo..hi], hi - lo)
    decreases hi - lo
  {
    if lo < hi {
      PathsConcat(rs, lo, hi - 1);
      PathsPrefix(rs[lo..hi], rs[lo..hi - 1], hi - 1 - lo);
      assert rs[lo..hi][hi - 1 - lo] == rs[hi - 1];
    }
  }

  /** The same for the failures. */
  lemma {:induction false} ReasonsConcat(rs: seq<Settled>, lo: nat, hi: nat)
    requires lo <= hi <= |rs|
    ensures Reasons(rs, hi) == Reasons(rs, lo) + Reasons(rs[lo..hi], hi - lo)
    decreases hi - lo
  {
    if lo < hi {
      var window := rs[lo..hi];
      ReasonsConcat(rs, lo, hi - 1);
      ReasonsPrefix(window, rs[lo..hi - 1], hi - 1 - lo);
      assert window[hi - 1 - lo] == rs[hi - 1];
      var last := if rs[hi - 1].Rejected? && rs[hi - 1].reason.Some? then [rs[hi - 1].reason.value] else [];
      assert Reasons(window, hi - lo) == Reasons(window, hi - lo - 1) + last;
    }
  }

  /** When every result carries a reason or a value, each of the first k
      results ends up in exactly one of the two lists. */
  lemma {:induction false} CountInvariant(rs: seq<Settled>, k: nat)
    requires k <= |rs|
    requires forall j :: 0 <= j < |rs| ==> rs[j] != Rejected(None)
    ensures |Paths(rs, k)| + |Reasons(rs, k)| == k
    decreases k
  {
    if k > 0 {
      CountInvariant(rs, k - 1);
    }
  }

  /** With at least one attempt, every file is either a success or a failure. */
  lemma EveryFileCounted(files: seq<FileInfo>, retries: nat, outcome: Oracle)
    requires retries >= 1
    ensures |Successes(files, retries, outcome)| + |Failures(files, retries, outcome)| == |files|
  {
    CountedUpTo(files, retries, outcome, |files|);
  }

  /** The same for the first k files. */
  lemma CountedUpTo(files: seq<FileInfo>, retries: nat, outcome: Oracle, k: nat)
    requires retries >= 1 && k <= |files|
    ensures var all := SettleAll(files, retries, outcome);
      |Paths(all, k)| + |Reasons(all, k)| == k
  {
    var all := SettleAll(files, retries, outcome);
    forall j | 0 <= j < |all|
      ensures all[j] != Rejected(None)
    {
      assert all[j] == Settle(files[j], retries, outcome);
    }
    CountInvariant(all, k);
  }

  lemma SettleAllConcat(xs: seq<FileInfo>, ys: seq<FileInfo>, retries: nat, outcome: Oracle)
    ensures SettleAll(xs + ys, retries, outcome) == SettleAll(xs, retries, outcome) + SettleAll(ys, retries, outcome)
  {
    var all, left, right := SettleAll(xs + ys, retries, outcome), SettleAll(xs, retries, outcome), SettleAll(ys, retries, outcome);
    forall j | 0 <= j < |all|
      ensures all[j] == (left + right)[j]
    {
      if j < |xs| {
        assert (xs + ys)[j] == xs[j];
      } else {
        assert (xs + ys)[j] == ys[j - |xs|];
      }
    }
  }

  lemma PathsAppend(rs: seq<Settled>, qs: seq<Settled>)
    ensures Paths(rs + qs, |rs + qs|) == Paths(rs, |rs|) + Paths(qs, |qs|)
  {
    var all := rs + qs;
    assert all[|rs|..|all|] == qs;
    PathsConcat(all, |rs|, |all|);
    PathsPrefix(all, rs, |rs|);
  }

  lemma ReasonsAppend(rs: seq<Settled>, qs: seq<Settled>)
    ensures Reasons(rs + qs, |rs + qs|) == Reasons(rs, |rs|) + Reasons(qs, |qs|)
  {
    var all := rs + qs;
    assert all[|rs|..|all|] == qs;
    ReasonsConcat(all, |rs|, |all|);
    ReasonsPrefix(all, rs, |rs|);
  }

  /** Both lists keep input order: the lists of a concatenation are the
      lists of its first part followed by those of its second. */
  lemma ListsConcat(xs: seq<FileInfo>, ys: seq<FileInfo>, retries: nat, outcome: Oracle)
    ensures Successes(xs + ys, retries, outcome) == Successes(xs, retries, outcome) + Successes(ys, retries, outcome)
    ensures Failures(xs + ys, retries, outcome) == Failures(xs, retries, outcome) + Failures(ys, retries, outcome)
  {
    var left, right := SettleAll(xs, retries, outcome), SettleAll(ys, retries, outcome);
    SettleAllConcat(xs, ys, retries, outcome);
    PathsAppend(left, right);
    ReasonsAppend(left, right);
    MapConcat(Record, Reasons(left, |left|), Reasons(right, |right|));
  }

  /** A path is among the successes of the first k files exactly when one of
      them with that path has an attempt that succeeds. */
  lemma {:induction false} SuccessMembershipTo(files: seq<FileInfo>, k: nat, retries: nat, outcome: Oracle, p: string)
    requires k <= |files|
    ensures p in Paths(SettleAll(files, retries, outcome), k) <==>
      exists i, a :: 0 <= i < k && 0 <= a < retries && files[i].path == p && outcome(files[i], a).Ok?
    decreases k
  {
    if k > 0 {
      SuccessMembershipTo(files, k - 1, retries, outcome, p);
      SettleFulfilled(files[k - 1], retries, outcome);
    }
  }

  /** A path is in `success` exactly when some file with that path has an
      attempt that succeeds. */
  lemma SuccessMembership(files: seq<FileInfo>, retries: nat, outcome: Oracle, p: string)
    ensures p in Successes(files, retries, outcome) <==>
      exists i, a :: 0 <= i < |files| && 0 <= a < retries && files[i].path == p && outcome(files[i], a).Ok?
  {
    SuccessMembershipTo(files, |files|, retries, outcome, p);
  }

  /** A message is among the reasons of the first k files exactly when one
      of them fails every attempt and its last attempt failed with it. */
  lemma {:induction false} ReasonMembership(files: seq<FileInfo>, k: nat, retries: nat, outcome: Oracle, m: string)
    requires k <= |files|
    ensures m in Reasons(SettleAll(files, retries, outcome), k) <==>
      exists i :: 0 <= i < k && retries >= 1 && Settle(files[i], retries, outcome).Rejected?
        && m == outcome(files[i], retries - 1).message
    decreases k
  {
    if k > 0 {
      ReasonMembership(files, k - 1, retries, outcome, m);
    }
  }

  /** An entry is in `failed` exactly when some file fails every attempt and
      the entry is made from the message of its last attempt. */
  lemma FailureMembership(files: seq<FileInfo>, retries: nat, outcome: Oracle, x: FailedFile)
    ensures x in Failures(files, retries, outcome) <==>
      exists i :: 0 <= i < |files| && retries >= 1 && Settle(files[i], retries, outcome).Rejected?
        && x == Record(outcome(files[i], retries - 1).message)
  {
    var reasons := Reasons(SettleAll(files, retries, outcome), |files|);
    if x in Failures(files, retries, outcome) {
      var j :| 0 <= j < |reasons| && Failures(files, retries, outcome)[j] == x;
      ReasonMembership(files, |files|, retries, outcome, reasons[j]);
    }
    if exists i :: 0 <= i < |files| && retries >= 1 && Settle(files[i], retries, outcome).Rejected?
         && x == Record(outcome(files[i], retries - 1).message) {
      var i :| 0 <= i < |files| && retries >= 1 && Settle(files[i], retries, outcome).Rejected?
         && x == Record(outcome(files[i], retries - 1).message);
      ReasonMembership(files, |files|, retries, outcome, outcome(files[i], retries - 1).message);
      var j :| 0 <= j < |reasons| && reasons[j] == outcome(files[i], retries - 1).message;
      assert Failures(files, retries, outcome)[j] == x;
    }
  }

  // ---------------------------------------------------------------------
  // Windows and progress

  /** The windows the loop `for (i = lo; i < n; i += c)` visits. */
  function WindowsFrom(lo: nat, n: nat, c: nat): seq<Window>
    requires c >= 1
    decreases if lo < n then n - lo else 0
  {
    if lo >= n then [] else [Window(lo, Min(lo + c, n))] + WindowsFrom(lo + c, n, c)
  }

  /** The windows from lo are non-empty, lie within lo .. n, and the last
      one ends the list. */
  lemma {:induction false} WindowsWithin(lo: nat, n: nat, c: nat)
    requires c >= 1
    ensures forall k :: 0 <= k < |WindowsFrom(lo, n, c)| ==>
      lo <= WindowsFrom(lo, n, c)[k].lo < WindowsFrom(lo, n, c)[k].hi <= n
    ensures WindowsFrom(lo, n, c) == [] <==> lo >= n
    ensures WindowsFrom(lo, n, c) != [] ==> WindowsFrom(lo, n, c)[|WindowsFrom(lo, n, c)| - 1].hi == n
    decreases if lo < n then n - lo else 0
  {
    if lo < n {
      WindowsWithin(lo + c, n, c);
      var ws := WindowsFrom(lo, n, c);
      var rest := WindowsFrom(lo + c, n, c);
      assert ws == [Window(lo, Min(lo + c, n))] + rest;
      assert forall k :: 1 <= k < |ws| ==> ws[k] == rest[k - 1];
    }
  }

  function Windows(n: nat, c: nat): seq<Window>
    requires c >= 1
  {
    WindowsFrom(0, n, c)
  }

  /** Window k starts at k * c and ends c files later, or at the end of the list. */
  lemma {:induction false} WindowBounds(lo: nat, n: nat, c: nat, k: nat)
    requires c >= 1 && k < |WindowsFrom(lo, n, c)|
    ensures WindowsFrom(lo, n, c)[k] == Window(lo + k * c, Min(lo + k * c + c, n))
    decreases k
  {
    if k > 0 {
      WindowBounds(lo + c, n, c, k - 1);
      assert lo + c + (k - 1) * c == lo + k * c;
    }
  }

  predicate InWindow(w: Window, i: nat) {
    w.lo <= i < w.hi
  }

  /** The windows follow one another without overlapping. */
  lemma {:induction false} WindowsOrdered(lo: nat, n: nat, c: nat)
    requires c >= 1
    ensures forall k1, k2 :: 0 <= k1 < k2 < |WindowsFrom(lo, n, c)| ==>
      WindowsFrom(lo, n, c)[k1].hi <= WindowsFrom(lo, n, c)[k2].lo
    decreases if lo < n then n - lo else 0
  {
    if lo < n {
      var ws := WindowsFrom(lo, n, c);
      var rest := WindowsFrom(lo + c, n, c);
      assert ws == [Window(lo, Min(lo + c, n))] + rest;
      WindowsOrdered(lo + c, n, c);
      WindowsWithin(lo + c, n, c);
      forall k1, k2 | 0 <= k1 < k2 < |ws|
        ensures ws[k1].hi <= ws[k2].lo
      {
        assert ws[k2] == rest[k2 - 1];
        if k1 > 0 {
          assert ws[k1] == rest[k1 - 1];
        }
      }
    }
  }

  /** Some window holds index i. */
  lemma {:induction false} WindowExists(lo: nat, n: nat, c: nat, i: nat)
    requires c >= 1 && lo <= i < n
    ensures exists k :: 0 <= k < |WindowsFrom(lo, n, c)| && InWindow(WindowsFrom(lo, n, c)[k], i)
    decreases n - lo
  {
    var ws := WindowsFrom(lo, n, c);
    var rest := WindowsFrom(lo + c, n, c);
    assert ws == [Window(lo, Min(lo + c, n))] + rest;
    if i < lo + c {
      assert InWindow(ws[0], i);
    } else {
      WindowExists(lo + c, n, c, i);
      var k :| 0 <= k < |rest| && InWindow(rest[k], i);
      assert ws[k + 1] == rest[k];
    }
  }

  /** Every index of the list falls in exactly one window. */
  lemma WindowCover(n: nat, c: nat, i: nat)
    requires c >= 1 && i < n
    ensures exists k :: 0 <= k < |Windows(n, c)| && InWindow(Windows(n, c)[k], i)
    ensures forall k1, k2 ::
      (0 <= k1 < |Windows(n, c)| && 0 <= k2 < |Windows(n, c)| &&
       InWindow(Windows(n, c)[k1], i) && InWindow(Windows(n, c)[k2], i)) ==> k1 == k2
  {
    WindowExists(0, n, c, i);
    WindowsOrdered(0, n, c);
    var ws := Windows(n, c);
    assert forall k1, k2 :: 0 <= k1 < k2 < |ws| ==> !(InWindow(ws[k1], i) && InWindow(ws[k2], i));
  }

  /** `completed % 100 === 0 || completed === files.length`. */
  predicate ReportsProgress(completed: nat, total: nat) {
    completed % 100 == 0 || completed == total
  }

  /** The completed counts reported after the given windows: the end of each
      window whose end passes the progress test. */
  function Reported(ws: seq<Window>, n: nat): seq<nat>
    decreases |ws|
  {
    if ws == [] then []
    else Reported(ws[..|ws| - 1], n) + (if ReportsProgress(ws[|ws| - 1].hi, n) then [ws[|ws| - 1].hi] else [])
  }

  /** A count is reported exactly when it ends some window and passes the test. */
  lemma {:induction false} ReportedMembership(ws: seq<Window>, n: nat, x: nat)
    ensures x in Reported(ws, n) <==> ReportsProgress(x, n) && exists k :: 0 <= k < |ws| && ws[k].hi == x
    decreases |ws|
  {
    if ws != [] {
      var init := ws[..|ws| - 1];
      ReportedMembership(init, n, x);
      if exists k :: 0 <= k < |ws| && ws[k].hi == x {
        var k :| 0 <= k < |ws| && ws[k].hi == x;
        if k < |ws| - 1 {
          assert init[k] == ws[k];
        }
      }
    }
  }

  /** The last report of a non-empty list is the total. */
  lemma LastReportIsTotal(n: nat, c: nat)
    requires c >= 1 && n > 0
    ensures |Reported(Windows(n, c), n)| >= 1
    ensures Reported(Windows(n, c), n)[|Reported(Windows(n, c), n)| - 1] == n
  {
    WindowsWithin(0, n, c);
  }

  // ---------------------------------------------------------------------
  // The executor

  /** One more window run. */
  lemma ReportedStep(ws: seq<Window>, w: Window, n: nat)
    ensures Reported(ws + [w], n) == Reported(ws, n) + (if ReportsProgress(w.hi, n) then [w.hi] else [])
  {
    assert (ws + [w])[..|ws|] == ws;
  }

  /** Start every task of a window and wait for all of them to settle
      (`Promise.allSettled`): one result and one attempt log per file, in
      the window's order. */
  method SettleWindow(window: seq<FileInfo>, retries: nat, outcome: Oracle)
    returns (results: seq<Settled>, attempts: seq<Attempts>)
    ensures results == SettleAll(window, retries, outcome)
    ensures attempts == AttemptLogs(window, retries, outcome)
  {
    results := [];
    attempts := [];
    var k := 0;
    while k < |window|
      invariant 0 <= k <= |window|
      invariant |results| == k && |attempts| == k
      invariant forall j :: 0 <= j < k ==> results[j] == Settle(window[j], retries, outcome)
      invariant forall j :: 0 <= j < k ==> attempts[j] == AttemptLog(window[j], retries, outcome)
    {
      var s, a := RetryFile(window[k], retries, outcome);
      results := results + [s];
      attempts := attempts + [a];
      k := k + 1;
    }
  }

  /** What `result.reason.message` throws when the reason is `undefined`. */
  const MISSING_REASON := "Cannot read properties of undefined (reading 'message')"

  /** The loop over the settled results of one window: a fulfilled result
      appends its path to `success`, a rejected one the record of its message
      to `failed`. It stops (false) at the first reason that is `undefined`. */
  method FoldWindow(results: seq<Settled>, success0: seq<string>, failed0: seq<FailedFile>)
    returns (ok: bool, success: seq<string>, failed: seq<FailedFile>)
    ensures ok <==> forall j :: 0 <= j < |results| ==> results[j] != Rejected(None)
    ensures ok ==> success == success0 + Paths(results, |results|)
    ensures ok ==> failed == failed0 + Map(Record, Reasons(results, |results|))
  {
    success, failed := success0, failed0;
    var m := 0;
    while m < |results|
      invariant 0 <= m <= |results|
      invariant forall j :: 0 <= j < m ==> results[j] != Rejected(None)
      invariant success == success0 + Paths(results, m)
      invariant failed == failed0 + Map(Record, Reasons(results, m))
    {
      MapConcat(Record, Reasons(results, m), if results[m].Rejected? && results[m].reason.Some? then [results[m].reason.value] else []);
      match results[m] {
        case Fulfilled(p) =>
          success := success + [p];
        case Rejected(None) =>
          return false, success, failed;
        case Rejected(Some(msg)) =>
          failed := failed + [Record(msg)];
      }
      m := m + 1;
    }
    ok := true;
  }

  /** Running the window at i moves it from the windows to come to the windows done. */
  lemma WindowsAdvance(done: seq<Window>, i: nat, n: nat, c: nat)
    requires c >= 1 && i < n
    ensures done + WindowsFrom(i, n, c) == (done + [Window(i, Min(i + c, n))]) + WindowsFrom(i + c, n, c)
  {
    assert WindowsFrom(i, n, c) == [Window(i, Min(i + c, n))] + WindowsFrom(i + c, n, c);
  }

  lemma SliceJoin<T>(xs: seq<T>, i: nat, j: nat)
    requires i <= j <= |xs|
    ensures xs[..i] + xs[i..j] == xs[..j]
  {
  }

  /** Record a finished window and report progress after it when the
      completed count, which is where the window ends, passes the test. */
  method CloseWindow(windows: seq<Window>, progress: seq<nat>, w: Window, completed: nat, n: nat)
    returns (windows': seq<Window>, progress': seq<nat>)
    requires progress == Reported(windows, n) && completed == w.hi
    ensures windows' == windows + [w]
    ensures progress' == Reported(windows', n)
  {
    ReportedStep(windows, w, n);
    windows' := windows + [w];
    progress' := progress;
    if ReportsProgress(completed, n) {
      progress' := progress' + [completed];
    }
  }

  /** Folding a window's results after those of the windows before it
      gives the lists of all files up to the window's end. */
  lemma WindowFold(all: seq<Settled>, lo: nat, hi: nat, results: seq<Settled>)
    requires lo <= hi <= |all| && results == all[lo..hi]
    ensures Paths(all, lo) + Paths(results, |results|) == Paths(all, hi)
    ensures Map(Record, Reasons(all, lo)) + Map(Record, Reasons(results, |results|)) == Map(Record, Reasons(all, hi))
  {
    assert |results| == hi - lo;
    PathsConcat(all, lo, hi);
    var before, within := Reasons(all, lo), Reasons(results, hi - lo);
    ReasonsConcat(all, lo, hi);
    assert Reasons(all, hi) == before + within;
    MapConcat(Record, before, within);
  }

  /** One window files[lo..hi] of the executor: run its tasks, wait for all
      of them, fold their results into the lists built so far. It fails
      (false) exactly when no attempt is allowed. */
  method RunWindow(files: seq<FileInfo>, lo: nat, hi: nat, retries: nat, outcome: Oracle,
                   success0: seq<string>, failed0: seq<FailedFile>)
    returns (ok: bool, success: seq<string>, failed: seq<FailedFile>, logs: seq<Attempts>)
    requires lo < hi <= |files|
    requires success0 == Paths(SettleAll(files, retries, outcome), lo)
    requires failed0 == Map(Record, Reasons(SettleAll(files, retries, outcome), lo))
    ensures logs == AttemptLogs(files, retries, outcome)[lo..hi]
    ensures ok <==> retries > 0
    ensures ok ==> success == Paths(SettleAll(files, retries, outcome), hi)
    ensures ok ==> failed == Map(Record, Reasons(SettleAll(files, retries, outcome), hi))
    ensures ok ==> |success| + |failed| == hi
  {
    ghost var all := SettleAll(files, retries, outcome);
    var results;
    results, logs := SettleWindow(files[lo..hi], retries, outcome);
    WindowSlices(files, lo, hi, retries, outcome);
    ok, success, failed := FoldWindow(results, success0, failed0);
    assert results[0] == Settle(files[lo], retries, outcome);
    if ok {
      WindowFold(all, lo, hi, results);
      CountedUpTo(files, retries, outcome, hi);
    }
  }

  /** The executor, with the transfer as the oracle `outcome`. With
      `retries` 0 no attempt runs, the first file's task throws `undefined`
      and reading its message makes the whole call reject. */
  method DownloadFiles(files: seq<FileInfo>, concurrency: nat, retries: nat, outcome: Oracle)
    returns (r: Result<BatchResult, string>, log: Log)
    requires concurrency >= 1
    ensures r.Failure? <==> retries == 0 && |files| > 0
    ensures r.Failure? ==> r.error == MISSING_REASON
    ensures r.Success? ==> r.value.success == Successes(files, retries, outcome)
    ensures r.Success? ==> r.value.failed == Failures(files, retries, outcome)
    ensures r.Success? ==> |r.value.success| + |r.value.failed| == |files|
    ensures r.Success? ==> log.windows == Windows(|files|, concurrency)
    ensures r.Success? ==> log.progress == Reported(log.windows, |files|)
    ensures r.Success? ==> log.attempts == AttemptLogs(files, retries, outcome)
  {
    ghost var all := SettleAll(files, retries, outcome);
    ghost var allLogs := AttemptLogs(files, retries, outcome);
    var success: seq<string> := [];
    var failed: seq<FailedFile> := [];
    var windows: seq<Window> := [];
    var attempts: seq<Attempts> := [];
    var progress: seq<nat> := [];
    var n := |files|;
    var i: nat := 0;
    while i < n
      invariant retries == 0 ==> i == 0
      invariant windows + WindowsFrom(i, n, concurrency) == Windows(n, concurrency)
      invariant success == Paths(all, Min(i, n))
      invariant failed == Map(Record, Reasons(all, Min(i, n)))
      invariant attempts == allLogs[..Min(i, n)]
      invariant progress == Reported(windows, n)
      decreases n - i
    {
      var hi := Min(i + concurrency, n);
      var ok, logs;
      ok, success, failed, logs := RunWindow(files, i, hi, retries, outcome, success, failed);
      SliceJoin(allLogs, i, hi);
      attempts := attempts + logs;
      if !ok {
        r := Failure(MISSING_REASON);
        log := Log(windows, attempts, progress);
        return;
      }
      WindowsAdvance(windows, i, n, concurrency);
      windows, progress := CloseWindow(windows, progress, Window(i, hi), |success| + |failed|, n);
      i := i + concurrency;
      assert Min(i, n) == hi;
    }
    assert allLogs[..n] == allLogs;
    if n > 0 {
      EveryFileCounted(files, retries, outcome);
    }
    r := Success(BatchResult(success, failed));
    log := Log(windows, attempts, progress);
  }

  /** The oracle of the presigned executor: an attempt on a file is a
      presigned download of its URL; `presigned(url, attempt)` is how it settles. */
  function ViaPresigned(presigned: (string, nat) -> Outcome): Oracle {
    (f: FileInfo, a: nat) => presigned(f.downloadUrl, a)
  }

  /** The oracle of the proxied executor: an attempt on a file is a proxied
      download of its path with the run's deployment parameters. */
  function ViaDirect(direct: (DeploymentParams, string, nat) -> Outcome, params: DeploymentParams): Oracle {
    (f: FileInfo, a: nat) => direct(params, f.path, a)
  }

  /** `downloadFilesWithPresignedUrls`. */
  method DownloadFilesWithPresignedUrls(files: seq<FileInfo>, concurrency: nat, retries: nat,
                                        presigned: (string, nat) -> Outcome)
    returns (r: Result<BatchResult, string>, log: Log)
    requires concurrency >= 1
    ensures r.Failure? <==> retries == 0 && |files| > 0
    ensures r.Success? ==> r.value == BatchResult(
      Successes(files, retries, ViaPresigned(presigned)), Failures(files, retries, ViaPresigned(presigned)))
    ensures r.Success? ==> |r.value.success| + |r.value.failed| == |files|
    ensures r.Success? ==> log.windows == Windows(|files|, concurrency)
    ensures r.Success? ==> log.progress == Reported(log.windows, |files|)
    ensures r.Success? ==> log.attempts == AttemptLogs(files, retries, ViaPresigned(presigned))
  {
    r, log := DownloadFiles(files, concurrency, retries, ViaPresigned(presigned));
  }

  /** `downloadFilesDirect`. */
  method DownloadFilesDirect(files: seq<FileInfo>, params: DeploymentParams, concurrency: nat, retries: nat,
                             direct: (DeploymentParams, string, nat) -> Outcome)
    returns (r: Result<BatchResult, string>, log: Log)
    requires concurrency >= 1
    ensures r.Failure? <==> retries == 0 && |files| > 0
    ensures r.Success? ==> r.value == BatchResult(
      Successes(files, retries, ViaDirect(direct, params)), Failures(files, retries, ViaDirect(direct, params)))
    ensures r.Success? ==> |r.value.success| + |r.value.failed| == |files|
    ensures r.Success? ==> log.windows == Windows(|files|, concurrency)
    ensures r.Success? ==> log.progress == Reported(log.windows, |files|)
    ensures r.Success? ==> log.attempts == AttemptLogs(files, retries, ViaDirect(direct, params))
  {
    r, log := DownloadFiles(files, concurrency, retries, ViaDirect(direct, params));
  }
}

=== FILE: download.dfy ===
/** `downloadArtifacts` (src/download.ts): prepare the output directory, ask
    the API for the manifest, run the executor the storage supports with ten
    files at a time and three attempts per file, warn about the failures and
    fail the run when more files failed than succeeded. */
module Download {
  import opened Base
  import opened Text
  import opened Types
  import opened Transfer
  import opened Batch

  /** The resolved output directory, as far as the run looks at it: whether
      it exists and how many entries it holds. */
  class OutputDir {
    const path: string
    var present: bool
    var entries: nat

    /** A directory that does not exist holds nothing. */
    predicate Valid()
      reads this
    {
      present || entries == 0
    }

    constructor (path: string, present: bool, entries: nat)
      requires present || entries == 0
      ensures this.path == path && this.present == present && this.entries == entries
      ensures Valid()
    {
      this.path := path;
      this.present := present;
      this.entries := entries;
    }

    /** `fs.rmSync(dir, { recursive: true })`: the directory and all it holds are gone. */
    method RemoveRecursive()
      modifies this
      ensures !present && entries == 0
      ensures Valid()
    {
      present := false;
      entries := 0;
    }

    /** `fs.mkdirSync(dir, { recursive: true })`: the directory exists
        afterwards, and an existing one keeps what it holds. */
    method MakeDirRecursive()
      requires Valid()
      modifies this
      ensures present && entries == old(entries)
      ensures Valid()
    {
      present := true;
    }
  }

  const FILES_PER_WINDOW := 10
  const ATTEMPTS_PER_FILE := 3
  const NO_FILES := "No files found to download"

  function NotEmptyMessage(dir: string): string {
    "Output directory " + dir + " is not empty. Use overwrite: true to replace existing files."
  }

  /** The sum of the manifest's sizes (`reduce((sum, f) => sum + f.size, 0)`). */
  function TotalSize(files: seq<FileInfo>): (t: nat)
    ensures forall i :: 0 <= i < |files| ==> files[i].size <= t
    ensures t == 0 <==> forall i :: 0 <= i < |files| ==> files[i].size == 0
    decreases |files|
  {
    if files == [] then 0 else TotalSize(files[..|files| - 1]) + files[|files| - 1].size
  }

  /** The total of a concatenation is the sum of the totals. */
  lemma {:induction false} TotalSizeConcat(xs: seq<FileInfo>, ys: seq<FileInfo>)
    ensures TotalSize(xs + ys) == TotalSize(xs) + TotalSize(ys)
    decreases |ys|
  {
    if ys == [] {
      assert xs + ys == xs;
    } else {
      assert (xs + ys)[..|xs + ys| - 1] == xs + ys[..|ys| - 1];
      TotalSizeConcat(xs, ys[..|ys| - 1]);
    }
  }

  /** How the run transfers the files. */
  datatype Strategy = Presigned | Direct(params: DeploymentParams)

  /** The storage decides: presigned URLs when it supports them, otherwise
      the API proxies each file with the run's deployment parameters. */
  function Chosen(inputs: ActionInputs, manifest: Manifest): (s: Strategy)
    ensures s.Presigned? <==> manifest.presignedUrlsSupported
    ensures s.Direct? ==>
      (s.params.repository == inputs.repository && s.params.alias == inputs.alias
       && s.params.commitSha == inputs.commitSha && s.params.branch == inputs.branch)
  {
    if manifest.presignedUrlsSupported then Presigned
    else Direct(DeploymentParams(inputs.repository, inputs.alias, inputs.commitSha, inputs.branch))
  }

  function OracleOf(strategy: Strategy, presigned: (string, nat) -> Outcome,
                    direct: (DeploymentParams, string, nat) -> Outcome): Oracle {
    match strategy
    case Presigned => ViaPresigned(presigned)
    case Direct(params) => ViaDirect(direct, params)
  }

  /** What the chosen executor returns for the manifest's files. */
  function Executed(files: seq<FileInfo>, strategy: Strategy, presigned: (string, nat) -> Outcome,
                    direct: (DeploymentParams, string, nat) -> Outcome): BatchResult {
    var outcome := OracleOf(strategy, presigned, direct);
    BatchResult(Successes(files, ATTEMPTS_PER_FILE, outcome), Failures(files, ATTEMPTS_PER_FILE, outcome))
  }

  /** One line of the failure warning. */
  function FailureLine(f: FailedFile): string {
    "  - " + f.path + ": " + f.error
  }

  function WarningHeader(count: nat): string {
    NatToString(count) + " files failed to download:"
  }

  /** The warning for a non-empty failure list: the count, then at most the
      first ten failures, one per line. */
  function FailureWarning(failed: seq<FailedFile>): (w: string)
    ensures WarningHeader(|failed|) + "\n" <= w
  {
    WarningHeader(|failed|) + "\n" + Join(Map(FailureLine, failed[..Min(10, |failed|)]), "\n")
  }

  function TooManyMessage(failed: nat, total: nat): string {
    "Too many download failures: " + NatToString(failed) + "/" + NatToString(total)
  }

  /** The end of a run with a non-empty manifest: the failure threshold, or
      the summary of what was downloaded. */
  function Conclude(manifest: Manifest, batch: BatchResult): (r: Result<DownloadResult, string>)
    ensures r.Failure? <==> |batch.failed| > |batch.success|
    ensures r.Failure? ==> r.error == TooManyMessage(|batch.failed|, |manifest.files|)
    ensures r.Success? ==>
      r.value.commitSha == manifest.commitSha && r.value.files == batch.success
      && r.value.fileCount == |batch.success| && r.value.totalSize == TotalSize(manifest.files)
  {
    if |batch.failed| > 0 && |batch.failed| > |batch.success| then
      Failure(TooManyMessage(|batch.failed|, |manifest.files|))
    else
      Success(DownloadResult(manifest.commitSha, |batch.success|, TotalSize(manifest.files), batch.success))
  }

  /** The warnings a run with a non-empty manifest emits. */
  function Warnings(batch: BatchResult): (ws: seq<string>)
    ensures |ws| <= 1
    ensures ws == [] <==> batch.failed == []
    ensures ws != [] ==> ws[0] == FailureWarning(batch.failed)
  {
    if |batch.failed| > 0 then [FailureWarning(batch.failed)] else []
  }

  /** What one run did besides returning: the manifest request it sent (if
      it got that far), the transfer it chose, what the executor did (the
      windows, the attempts and the progress reports) and the warnings it emitted. */
  datatype Trace = Trace(request: Option<ManifestCall>, strategy: Option<Strategy>, log: Option<Log>,
                         warnings: seq<string>)

  /** What the chosen executor does for the manifest's files: ten files to a
      window, three attempts per file, and the progress test after each window. */
  function ExecutedLog(files: seq<FileInfo>, strategy: Strategy, presigned: (string, nat) -> Outcome,
                       direct: (DeploymentParams, string, nat) -> Outcome): Log {
    var windows := Windows(|files|, FILES_PER_WINDOW);
    Log(windows, AttemptLogs(files, ATTEMPTS_PER_FILE, OracleOf(strategy, presigned, direct)), Reported(windows, |files|))
  }

  /** The request body the run sends for the manifest. */
  function ManifestRequest(inputs: ActionInputs): PrepareRequest {
    PrepareRequest(inputs.repository, inputs.sourcePath, inputs.alias, inputs.commitSha, inputs.branch)
  }

  /** The directory refuses the run: it holds something and overwriting is off. */
  predicate Blocked(present: bool, entries: nat, overwrite: bool) {
    present && entries > 0 && !overwrite
  }

  /** How a run that received manifest m ends: an empty manifest returns an
      empty result and a warning without transferring anything; otherwise the
      chosen executor runs and the threshold decides. */
  predicate FinishesWith(inputs: ActionInputs, m: Manifest, presigned: (string, nat) -> Outcome,
                         direct: (DeploymentParams, string, nat) -> Outcome,
                         r: Result<DownloadResult, string>, strategy: Option<Strategy>, log: Option<Log>,
                         warnings: seq<string>)
  {
    if |m.files| == 0 then
      r == Success(DownloadResult(m.commitSha, 0, 0, [])) && strategy.None? && log.None? && warnings == [NO_FILES]
    else
      var batch := Executed(m.files, Chosen(inputs, m), presigned, direct);
      r == Conclude(m, batch) && strategy == Some(Chosen(inputs, m))
      && log == Some(ExecutedLog(m.files, Chosen(inputs, m), presigned, direct)) && warnings == Warnings(batch)
  }

  /** The part of `downloadArtifacts` after the manifest arrived. */
  method TransferManifest(inputs: ActionInputs, manifest: Manifest, presigned: (string, nat) -> Outcome,
                          direct: (DeploymentParams, string, nat) -> Outcome)
    returns (r: Result<DownloadResult, string>, strategy: Option<Strategy>, log: Option<Log>,
             warnings: seq<string>)
    ensures FinishesWith(inputs, manifest, presigned, direct, r, strategy, log, warnings)
  {
    if |manifest.files| == 0 {
      return Success(DownloadResult(manifest.commitSha, 0, 0, [])), None, None, [NO_FILES];
    }

    var totalSize := TotalSize(manifest.files);
    var chosen := Chosen(inputs, manifest);
    strategy := Some(chosen);
    var executed: Result<BatchResult, string>;
    var executedLog: Log;
    if manifest.presignedUrlsSupported {
      executed, executedLog := DownloadFilesWithPresignedUrls(manifest.files, FILES_PER_WINDOW, ATTEMPTS_PER_FILE, presigned);
    } else {
      executed, executedLog := DownloadFilesDirect(manifest.files, chosen.params, FILES_PER_WINDOW, ATTEMPTS_PER_FILE, direct);
    }
    var batch := executed.value;
    log := Some(executedLog);

    warnings := [];
    if |batch.failed| > 0 {
      warnings := [FailureWarning(batch.failed)];
      if |batch.failed| > |batch.success| {
        return Failure(TooManyMessage(|batch.failed|, |manifest.files|)), strategy, log, warnings;
      }
    }
    r := Success(DownloadResult(manifest.commitSha, |batch.success|, totalSize, batch.success));
  }

  /** `downloadArtifacts`. `dir` is the output directory after path
      resolution; `manifestReply` is how the manifest request is answered,
      and `presigned`/`direct` are how each attempt of a transfer settles. */
  method DownloadArtifacts(inputs: ActionInputs, dir: OutputDir, manifestReply: ApiReply,
                           parse: string -> Option<Manifest>,
                           presigned: (string, nat) -> Outcome,
                           direct: (DeploymentParams, string, nat) -> Outcome)
    returns (r: Result<DownloadResult, string>, trace: Trace)
    requires dir.Valid()
    modifies dir
    ensures dir.Valid()
    // a non-empty directory without overwrite: nothing is touched, nothing is requested
    ensures Blocked(old(dir.present), old(dir.entries), inputs.overwrite) ==>
      r == Failure(NotEmptyMessage(dir.path)) && trace == Trace(None, None, None, [])
      && dir.present == old(dir.present) && dir.entries == old(dir.entries)
    // otherwise the directory exists and is empty when the manifest is requested
    ensures !Blocked(old(dir.present), old(dir.entries), inputs.overwrite) ==>
      dir.present && dir.entries == 0 && trace.request.Some?
      && trace.request.value.base == inputs.apiUrl
      && trace.request.value.path == PREPARE_PATH && trace.request.value.body == ManifestRequest(inputs)
      && Lookup(trace.request.value.headers, "X-API-Key") == Some(inputs.apiKey)
    ensures !Blocked(old(dir.present), old(dir.entries), inputs.overwrite) ==>
      match ApiOutcome(manifestReply, parse)
      case Failure(e) => r == Failure(e) && trace.strategy.None? && trace.log.None? && trace.warnings == []
      case Success(m) => FinishesWith(inputs, m, presigned, direct, r, trace.strategy, trace.log, trace.warnings)
  {
    if dir.present {
      var contents := dir.entries;
      if contents > 0 && !inputs.overwrite {
        return Failure(NotEmptyMessage(dir.path)), Trace(None, None, None, []);
      }
      if contents > 0 && inputs.overwrite {
        dir.RemoveRecursive();
      }
    }
    dir.MakeDirRecursive();

    var call, prepared := RequestPrepareBatchDownload(inputs.apiUrl, inputs.apiKey, ManifestRequest(inputs), manifestReply, parse);
    if prepared.Failure? {
      return Failure(prepared.error), Trace(Some(call), None, None, []);
    }
    var strategy, log, warnings;
    r, strategy, log, warnings := TransferManifest(inputs, prepared.value, presigned, direct);
    trace := Trace(Some(call), strategy, log, warnings);
  }

  /** The executor of a run visits the files ten at a time, window k holding
      files 10k up to 10k + 10 (or the end of the list); it makes one to three
      attempts on every file; and its last progress report is the total. */
  lemma TenAtATime(files: seq<FileInfo>, strategy: Strategy, presigned: (string, nat) -> Outcome,
                   direct: (DeploymentParams, string, nat) -> Outcome)
    ensures var log := ExecutedLog(files, strategy, presigned, direct);
      (forall k :: 0 <= k < |log.windows| ==>
         log.windows[k] == Window(FILES_PER_WINDOW * k, Min(FILES_PER_WINDOW * k + FILES_PER_WINDOW, |files|)))
      && |log.attempts| == |files|
      && (forall j :: 0 <= j < |files| ==> 1 <= log.attempts[j].count <= ATTEMPTS_PER_FILE)
      && (|files| > 0 ==> |log.progress| >= 1 && log.progress[|log.progress| - 1] == |files|)
  {
    var log := ExecutedLog(files, strategy, presigned, direct);
    forall k | 0 <= k < |log.windows|
      ensures log.windows[k] == Window(FILES_PER_WINDOW * k, Min(FILES_PER_WINDOW * k + FILES_PER_WINDOW, |files|))
    {
      WindowBounds(0, |files|, FILES_PER_WINDOW, k);
    }
    forall j | 0 <= j < |files|
      ensures 1 <= log.attempts[j].count <= ATTEMPTS_PER_FILE
    {
      AttemptLogShape(files[j], ATTEMPTS_PER_FILE, OracleOf(strategy, presigned, direct));
    }
    if |files| > 0 {
      LastReportIsTotal(|files|, FILES_PER_WINDOW);
    }
  }

  /** Each file of the manifest is either downloaded or recorded as failed,
      so a run fails on the threshold exactly when more than half its files failed. */
  lemma ThresholdIsMajority(manifest: Manifest, strategy: Strategy, presigned: (string, nat) -> Outcome,
                            direct: (DeploymentParams, string, nat) -> Outcome)
    ensures var batch := Executed(manifest.files, strategy, presigned, direct);
      |batch.success| + |batch.failed| == |manifest.files|
      && (Conclude(manifest, batch).Failure? <==> 2 * |batch.failed| > |manifest.files|)
  {
    EveryFileCounted(manifest.files, ATTEMPTS_PER_FILE, OracleOf(strategy, presigned, direct));
  }

  /** The paths a successful run returns are exactly the paths of the
      manifest files one of whose three attempts succeeded. */
  lemma ReturnedFiles(manifest: Manifest, strategy: Strategy, presigned: (string, nat) -> Outcome,
                      direct: (DeploymentParams, string, nat) -> Outcome, p: string)
    requires Conclude(manifest, Executed(manifest.files, strategy, presigned, direct)).Success?
    ensures var files := Conclude(manifest, Executed(manifest.files, strategy, presigned, direct)).value.files;
      p in files <==> exists i, a ::
        0 <= i < |manifest.files| && 0 <= a < ATTEMPTS_PER_FILE
        && manifest.files[i].path == p && OracleOf(strategy, presigned, direct)(manifest.files[i], a).Ok?
  {
    SuccessMembership(manifest.files, ATTEMPTS_PER_FILE, OracleOf(strategy, presigned, direct), p);
  }

  /** With paths and messages on one line each, the warning is a header line
      with the count, followed by one line for each of the first ten failures. */
  lemma {:induction false} WarningLines(failed: seq<FailedFile>)
    requires |failed| > 0
    requires forall i :: 0 <= i < |failed| ==> '\n' !in failed[i].path && '\n' !in failed[i].error
    ensures Split(FailureWarning(failed), '\n') == [WarningHeader(|failed|)] + Map(FailureLine, failed[..Min(10, |failed|)])
    ensures |Split(FailureWarning(failed), '\n')| == 1 + Min(10, |failed|)
  {
    var lines := Map(FailureLine, failed[..Min(10, |failed|)]);
    var header := WarningHeader(|failed|);
    JoinAppend([header], lines, "\n");
    assert ([header] + lines)[1..] == lines;
    assert FailureWarning(failed) == Join([header] + lines, "\n");
    var digits := NatToString(|failed|);
    assert header == digits + " files failed to download:";
    assert '\n' !in digits by {
      assert forall k :: 0 <= k < |digits| ==> IsDigit(digits[k]);
    }
    forall k | 0 <= k < |lines|
      ensures '\n' !in lines[k]
    {
      assert lines[k] == "  - " + failed[k].path + ": " + failed[k].error;
    }
    SplitJoin([header] + lines, '\n');
  }
}

=== FILE: inputs.dfy ===
/** `getInputs` (src/inputs.ts): read the action's inputs, insist on the
    required ones and on at least one deployment resolver, and fill in the
    defaults. The runner's inputs are a map from input name to raw text;
    the repository the workflow context names is a parameter. */
module Inputs {
  import opened Base
  import opened Text
  import opened Types

  /** The inputs as the runner supplies them; a name that is absent reads as "". */
  type Env = map<string, string>

  /** `core.getInput(name)`. */
  function GetInput(env: Env, name: string): string {
    if name in env then env[name] else ""
  }

  function RequiredMessage(name: string): string {
    "Input required and not supplied: " + name
  }

  /** `core.getInput(name, { required: true })`: an empty input is an error. */
  function GetRequired(env: Env, name: string): (r: Result<string, string>)
    ensures r.Success? <==> GetInput(env, name) != ""
    ensures r.Success? ==> r.value == GetInput(env, name)
    ensures r.Failure? ==> r.error == RequiredMessage(name)
  {
    if GetInput(env, name) == "" then Failure(RequiredMessage(name)) else Success(GetInput(env, name))
  }

  /** `s || undefined`: an empty input is no input. */
  function OrUndefined(s: string): (o: Option<string>)
    ensures IsSet(o) <==> s != ""
    ensures o.None? <==> s == ""
    ensures o.Some? ==> o.value == s
  {
    if s == "" then None else Some(s)
  }

  /** `s || fallback`. */
  function OrDefault(s: string, fallback: string): string {
    if s == "" then fallback else s
  }

  const RESOLVER_MESSAGE := "One of alias, commit-sha, or branch is required to identify the deployment"

  /** s is the lower-case word w with each letter in either case. */
  predicate SpellsIgnoringCase(s: string, w: string) {
    |s| == |w| && forall i :: 0 <= i < |w| ==> s[i] == w[i] || s[i] as int == w[i] as int - 32
  }

  /** `(input || 'false').toLowerCase() === 'true'`: on exactly when the
      input spells "true" in any case, and off by default. */
  function ParseOverwrite(raw: string): (on: bool)
    ensures on <==> SpellsIgnoringCase(raw, "true")
    ensures raw == "" ==> !on
  {
    LowersToTrue(raw);
    ToLower(OrDefault(raw, "false")) == "true"
  }

  /** `(input || 'true').toLowerCase() !== 'false'`: off exactly when the
      input spells "false" in any case, and on by default. */
  function ParseSummary(raw: string): (on: bool)
    ensures !on <==> SpellsIgnoringCase(raw, "false")
    ensures raw == "" ==> on
  {
    LowersToFalse(raw);
    ToLower(OrDefault(raw, "true")) != "false"
  }

  lemma LowersToTrue(raw: string)
    ensures ToLower(OrDefault(raw, "false")) == "true" <==> SpellsIgnoringCase(raw, "true")
  {
    var word := "true";
    assert forall i :: 0 <= i < |word| ==> IsLowerLetter(word[i]) by {
      assert word == ['t', 'r', 'u', 'e'];
    }
    ToLowerEqualsWord(OrDefault(raw, "false"), word);
    ToLowerEqualsWord(raw, word);
    assert |ToLower("false")| == 5;
  }

  lemma LowersToFalse(raw: string)
    ensures ToLower(OrDefault(raw, "true")) == "false" <==> SpellsIgnoringCase(raw, "false")
  {
    var word := "false";
    assert forall i :: 0 <= i < |word| ==> IsLowerLetter(word[i]) by {
      assert word == ['f', 'a', 'l', 's', 'e'];
    }
    ToLowerEqualsWord(OrDefault(raw, "true"), word);
    ToLowerEqualsWord(raw, word);
    assert |ToLower("true")| == 4;
  }

  /** `getInputs`. `derivedRepository` is `owner/repo` of the workflow context. */
  function GetInputs(env: Env, derivedRepository: string): (r: Result<ActionInputs, string>)
    ensures r.Failure? <==>
      GetInput(env, "api-url") == "" || GetInput(env, "api-key") == "" || GetInput(env, "source-path") == ""
      || (GetInput(env, "alias") == "" && GetInput(env, "commit-sha") == "" && GetInput(env, "branch") == "")
  {
    var apiUrl := GetRequired(env, "api-url");
    if apiUrl.Failure? then Failure(apiUrl.error) else
    var apiKey := GetRequired(env, "api-key");
    if apiKey.Failure? then Failure(apiKey.error) else
    var sourcePath := GetRequired(env, "source-path");
    if sourcePath.Failure? then Failure(sourcePath.error) else
    var alias := OrUndefined(GetInput(env, "alias"));
    var commitSha := OrUndefined(GetInput(env, "commit-sha"));
    var branch := OrUndefined(GetInput(env, "branch"));
    if !IsSet(alias) && !IsSet(commitSha) && !IsSet(branch) then Failure(RESOLVER_MESSAGE)
    else
      Success(ActionInputs(
        apiUrl.value, apiKey.value, sourcePath.value, alias, commitSha, branch,
        OrDefault(GetInput(env, "output-path"), sourcePath.value),
        OrDefault(GetInput(env, "repository"), derivedRepository),
        ParseOverwrite(GetInput(env, "overwrite")),
        ParseSummary(GetInput(env, "summary"))))
  }

  /** The errors come in the order the inputs are read: the required inputs
      one by one, then the resolver requirement. */
  lemma InputErrors(env: Env, derivedRepository: string)
    ensures GetInput(env, "api-url") == "" ==>
      GetInputs(env, derivedRepository) == Failure(RequiredMessage("api-url"))
    ensures GetInput(env, "api-url") != "" && GetInput(env, "api-key") == "" ==>
      GetInputs(env, derivedRepository) == Failure(RequiredMessage("api-key"))
    ensures GetInput(env, "api-url") != "" && GetInput(env, "api-key") != "" && GetInput(env, "source-path") == "" ==>
      GetInputs(env, derivedRepository) == Failure(RequiredMessage("source-path"))
    ensures (GetInput(env, "api-url") != "" && GetInput(env, "api-key") != "" && GetInput(env, "source-path") != ""
             && GetInput(env, "alias") == "" && GetInput(env, "commit-sha") == "" && GetInput(env, "branch") == "") ==>
      GetInputs(env, derivedRepository) == Failure(RESOLVER_MESSAGE)
  {
  }

  /** Each resolver is kept verbatim when given and undefined when empty;
      any combination of them is accepted as long as one is given. */
  lemma Resolvers(env: Env, derivedRepository: string)
    requires GetInputs(env, derivedRepository).Success?
    ensures var inputs := GetInputs(env, derivedRepository).value;
      inputs.alias == (if GetInput(env, "alias") == "" then None else Some(GetInput(env, "alias")))
      && inputs.commitSha == (if GetInput(env, "commit-sha") == "" then None else Some(GetInput(env, "commit-sha")))
      && inputs.branch == (if GetInput(env, "branch") == "" then None else Some(GetInput(env, "branch")))
      && (IsSet(inputs.alias) || IsSet(inputs.commitSha) || IsSet(inputs.branch))
  {
  }

  /** The required inputs pass through unchanged; the output path falls back
      to the source path and the repository to the workflow context's. */
  lemma Defaults(env: Env, derivedRepository: string)
    requires GetInputs(env, derivedRepository).Success?
    ensures var inputs := GetInputs(env, derivedRepository).value;
      inputs.apiUrl == env["api-url"] && inputs.apiKey == env["api-key"] && inputs.sourcePath == env["source-path"]
      && (GetInput(env, "output-path") == "" ==> inputs.outputPath == inputs.sourcePath)
      && (GetInput(env, "output-path") != "" ==> inputs.outputPath == env["output-path"])
      && (GetInput(env, "repository") == "" ==> inputs.repository == derivedRepository)
      && (GetInput(env, "repository") != "" ==> inputs.repository == env["repository"])
  {
  }

  /** The two flags read their inputs case-insensitively: overwrite only on
      "true", summary unless "false". */
  lemma Flags(env: Env, derivedRepository: string)
    requires GetInputs(env, derivedRepository).Success?
    ensures var inputs := GetInputs(env, derivedRepository).value;
      (inputs.overwrite <==> SpellsIgnoringCase(GetInput(env, "overwrite"), "true"))
      && (!inputs.summary <==> SpellsIgnoringCase(GetInput(env, "summary"), "false"))
  {
  }
}

=== FILE: summary.dfy ===
/** `writeSummary` (src/summary.ts): the Markdown step summary of a run, a
    two-column table of what was downloaded from where. The text is
    returned instead of being written to the runner's summary file. */
module Summary {
  import opened Base
  import opened Text
  import opened Types
  import opened Batch

  /** One table row, a property and its value. */
  datatype Row = Row(key: string, value: string)

  /** `formatBytes`. Only the zero case is fixed text; the scaled form of a
      non-zero count (floating-point division and rounding) is `scaled`. */
  function FormatBytes(bytes: nat, scaled: nat -> string): string {
    if bytes == 0 then "0 B" else scaled(bytes)
  }

  /** No size at all reads "0 B", however non-zero sizes are scaled. */
  lemma ZeroBytes(scaled: nat -> string)
    ensures FormatBytes(0, scaled) == "0 B"
  {
  }

  /** The four rows the table always starts with. */
  function LeadRows(inputs: ActionInputs, result: DownloadResult): seq<Row> {
    [Row("Repository", inputs.repository), Row("Source Path", inputs.sourcePath),
     Row("Output Path", inputs.outputPath), Row("Commit SHA", "`" + result.commitSha + "`")]
  }

  /** The row an optional input contributes: one, when it is given. */
  function OptionalRow(key: string, v: Option<string>): seq<Row> {
    if IsSet(v) then [Row(key, v.value)] else []
  }

  /** The rows of the table, in the order `writeSummary` pushes them. */
  function Rows(inputs: ActionInputs, result: DownloadResult, scaled: nat -> string): (rows: seq<Row>)
    ensures |rows| == 6 + (if IsSet(inputs.alias) then 1 else 0) + (if IsSet(inputs.branch) then 1 else 0)
    ensures forall i, j :: 0 <= i < j < |rows| ==> rows[i].key != rows[j].key
  {
    LeadRows(inputs, result) + OptionalRow("Alias", inputs.alias) + OptionalRow("Branch", inputs.branch)
    + [Row("Files", NatToString(result.fileCount)), Row("Total Size", FormatBytes(result.totalSize, scaled))]
  }

  function KeyOf(row: Row): string {
    row.key
  }

  /** `| **key** | value |`. */
  function RenderRow(row: Row): string {
    "| **" + row.key + "** | " + row.value + " |"
  }

  const HEADING := "## Download Summary"
  const TABLE_HEAD := "| Property | Value |"
  const TABLE_RULE := "|----------|-------|"

  /** The summary text: the heading, an empty line, the table head and
      rule, the rows one per line, and a final newline. */
  function Content(rows: seq<Row>): (text: string)
    ensures HEADING + "\n\n" <= text
    ensures text[|text| - 1] == '\n'
  {
    HEADING + "\n\n" + TABLE_HEAD + "\n" + TABLE_RULE + "\n" + Join(Map(RenderRow, rows), "\n") + "\n"
  }

  /** `writeSummary`: nothing when the summary is switched off, otherwise
      the table of the run, built by pushing its rows. */
  method WriteSummary(inputs: ActionInputs, result: DownloadResult, scaled: nat -> string)
    returns (content: Option<string>)
    ensures !inputs.summary <==> content.None?
    ensures content.Some? ==> content.value == Content(Rows(inputs, result, scaled))
  {
    if !inputs.summary {
      return None;
    }
    var rows := LeadRows(inputs, result);
    rows := rows + OptionalRow("Alias", inputs.alias);
    rows := rows + OptionalRow("Branch", inputs.branch);
    rows := rows + [Row("Files", NatToString(result.fileCount))];
    rows := rows + [Row("Total Size", FormatBytes(result.totalSize, scaled))];
    assert rows == Rows(inputs, result, scaled);
    content := Some(Content(rows));
  }

  /** The properties appear in a fixed order; Alias and Branch only when
      they are given, and never a row for the commit-sha input. */
  lemma RowKeys(inputs: ActionInputs, result: DownloadResult, scaled: nat -> string)
    ensures Map(KeyOf, Rows(inputs, result, scaled)) ==
      ["Repository", "Source Path", "Output Path", "Commit SHA"]
      + (if IsSet(inputs.alias) then ["Alias"] else [])
      + (if IsSet(inputs.branch) then ["Branch"] else [])
      + ["Files", "Total Size"]
  {
  }

  /** There is an Alias row exactly when an alias is given, and it shows the alias. */
  lemma AliasRow(inputs: ActionInputs, result: DownloadResult, scaled: nat -> string, v: string)
    ensures Row("Alias", v) in Rows(inputs, result, scaled) <==> IsSet(inputs.alias) && v == inputs.alias.value
  {
  }

  /** There is a Branch row exactly when a branch is given, and it shows the branch. */
  lemma BranchRow(inputs: ActionInputs, result: DownloadResult, scaled: nat -> string, v: string)
    ensures Row("Branch", v) in Rows(inputs, result, scaled) <==> IsSet(inputs.branch) && v == inputs.branch.value
  {
  }

  /** The Commit SHA row shows the run's commit in backticks, and the Files
      row the decimal file count, which reads back as that count. */
  lemma ValueRows(inputs: ActionInputs, result: DownloadResult, scaled: nat -> string)
    ensures var rows := Rows(inputs, result, scaled);
      rows[3] == Row("Commit SHA", "`" + result.commitSha + "`")
      && rows[|rows| - 2].key == "Files" && AllDigits(rows[|rows| - 2].value)
      && DecimalValue(rows[|rows| - 2].value) == result.fileCount
      && rows[|rows| - 1] == Row("Total Size", FormatBytes(result.totalSize, scaled))
  {
    DecimalRoundTrip(result.fileCount);
  }

  /** The lines before the table rows. */
  const HEAD_LINES := [HEADING, "", TABLE_HEAD, TABLE_RULE]

  lemma HeadJoin()
    ensures Join(HEAD_LINES, "\n") == HEADING + "\n\n" + TABLE_HEAD + "\n" + TABLE_RULE
  {
    var head := HEAD_LINES;
    assert head[1..] == ["", TABLE_HEAD, TABLE_RULE];
    assert head[1..][1..] == [TABLE_HEAD, TABLE_RULE];
    assert head[1..][1..][1..] == [TABLE_RULE];
    assert Join([TABLE_HEAD, TABLE_RULE], "\n") == TABLE_HEAD + "\n" + TABLE_RULE;
    assert Join(["", TABLE_HEAD, TABLE_RULE], "\n") == "\n" + TABLE_HEAD + "\n" + TABLE_RULE;
    assert "\n" + "\n" == "\n\n";
  }

  /** The summary is its lines joined by line breaks, the last line empty. */
  lemma ContentJoin(rows: seq<Row>)
    requires |rows| >= 1
    ensures Content(rows) == Join(HEAD_LINES + Map(RenderRow, rows) + [""], "\n")
  {
    var lines := Map(RenderRow, rows);
    HeadJoin();
    JoinAppend(HEAD_LINES, lines, "\n");
    JoinAppend(HEAD_LINES + lines, [""], "\n");
    assert Join([""], "\n") == "";
  }

  /** A row renders on one line when its key and value do. */
  lemma RowLine(row: Row)
    requires '\n' !in row.key && '\n' !in row.value
    ensures '\n' !in RenderRow(row)
  {
  }

  /** The summary's lines: the heading, an empty line, the table head and
      rule, one line per row, and the empty piece after the final newline
      (when no key or value holds a line break; the table always has rows). */
  lemma {:induction false} ContentLines(rows: seq<Row>)
    requires |rows| >= 1
    requires forall i :: 0 <= i < |rows| ==> '\n' !in rows[i].key && '\n' !in rows[i].value
    ensures Split(Content(rows), '\n') == HEAD_LINES + Map(RenderRow, rows) + [""]
  {
    var lines := Map(RenderRow, rows);
    var all := HEAD_LINES + lines + [""];
    ContentJoin(rows);
    forall k | 0 <= k < |all|
      ensures '\n' !in all[k]
    {
      if k < 4 {
        assert all[k] == HEAD_LINES[k];
      } else if k < 4 + |lines| {
        assert all[k] == lines[k - 4];
        RowLine(rows[k - 4]);
      }
    }
    SplitJoin(all, '\n');
  }
}

=== FILE: text.dfy ===
/** The string operations the source relies on, written out: decimal rendering
    of numbers (template literals and `String(n)`), `toLowerCase`,
    `substring(0, n)` and `Array.prototype.join`. `Split` is not used by the
    program; it serves to state the line structure of the texts it builds. */
module Text {
  import opened Base

  predicate IsDigit(c: char) {
    '0' <= c <= '9'
  }

  predicate AllDigits(s: string) {
    forall i :: 0 <= i < |s| ==> IsDigit(s[i])
  }

  function DigitChar(d: nat): (c: char)
    requires d < 10
    ensures IsDigit(c) && c as int - '0' as int == d
  {
    ('0' as int + d) as char
  }

  /** The decimal text of a natural number: digits only, no leading zero. */
  function NatToString(n: nat): (s: string)
    ensures |s| >= 1 && AllDigits(s)
    ensures s[0] == '0' ==> n == 0
    decreases n
  {
    if n < 10 then [DigitChar(n)] else NatToString(n / 10) + [DigitChar(n % 10)]
  }

  /** The value of a string of decimal digits (the inverse of NatToString). */
  function DecimalValue(s: string): nat
    requires AllDigits(s)
    decreases |s|
  {
    if s == [] then 0
    else DecimalValue(s[..|s| - 1]) * 10 + (s[|s| - 1] as int - '0' as int)
  }

  /** Reading back the decimal text of n gives n. */
  lemma {:induction false} DecimalRoundTrip(n: nat)
    ensures DecimalValue(NatToString(n)) == n
  {
    if n >= 10 {
      var s := NatToString(n);
      assert s[..|s| - 1] == NatToString(n / 10);
      DecimalRoundTrip(n / 10);
    }
  }

  function Lower(c: char): char {
    if 'A' <= c <= 'Z' then (c as int + 32) as char else c
  }

  predicate IsLowerLetter(c: char) {
    'a' <= c <= 'z'
  }

  /** `toLowerCase` on the ASCII letters; every other character is kept. */
  function ToLower(s: string): (r: string)
    ensures |r| == |s|
    ensures forall i :: 0 <= i < |s| ==> r[i] == Lower(s[i])
    decreases |s|
  {
    if s == [] then [] else [Lower(s[0])] + ToLower(s[1..])
  }

  /** The characters whose lower-case form is the lower-case letter l: l and its capital. */
  lemma LowerOfLetter(c: char, l: char)
    requires IsLowerLetter(l)
    ensures Lower(c) == l <==> c == l || c as int == l as int - 32
  {
  }

  /** Lower-casing s gives the lower-case word t exactly when s spells t
      with each letter in either case. */
  lemma ToLowerEqualsWord(s: string, t: string)
    requires forall i :: 0 <= i < |t| ==> IsLowerLetter(t[i])
    ensures ToLower(s) == t <==>
      |s| == |t| && forall i :: 0 <= i < |t| ==> s[i] == t[i] || s[i] as int == t[i] as int - 32
  {
    if |s| == |t| {
      forall i | 0 <= i < |t|
        ensures ToLower(s)[i] == t[i] <==> s[i] == t[i] || s[i] as int == t[i] as int - 32
      {
        LowerOfLetter(s[i], t[i]);
      }
    }
  }

  /** `s.substring(0, n)`: the first n characters, or all of s when it is shorter. */
  function Prefix(s: string, n: nat): (r: string)
    ensures |r| == Min(n, |s|) && r <= s
  {
    s[..Min(n, |s|)]
  }

  /** `xs.join(sep)`. */
  function Join(xs: seq<string>, sep: string): string
    decreases |xs|
  {
    if xs == [] then "" else if |xs| == 1 then xs[0] else xs[0] + sep + Join(xs[1..], sep)
  }

  /** `s.split(c)` for a one-character separator: the pieces between the
      occurrences of c, with an empty piece at either end when s starts or
      ends with c. */
  function Split(s: string, c: char): (parts: seq<string>)
    ensures |parts| >= 1
    decreases |s|
  {
    if s == [] then [""]
    else
      var rest := Split(s[1..], c);
      if s[0] == c then [""] + rest else [[s[0]] + rest[0]] + rest[1..]
  }

  /** A piece without the separator, followed by the separator, splits off as one part. */
  lemma {:induction false} SplitAfter(x: string, c: char, tail: string)
    requires c !in x
    ensures Split(x + [c] + tail, c) == [x] + Split(tail, c)
    decreases |x|
  {
    if x == [] {
      assert x + [c] + tail == [c] + tail;
      assert ([c] + tail)[1..] == tail;
    } else {
      assert (x + [c] + tail)[1..] == x[1..] + [c] + tail;
      SplitAfter(x[1..], c, tail);
      assert [x[0]] + x[1..] == x;
    }
  }

  /** A piece without the separator splits into itself. */
  lemma {:induction false} SplitWhole(x: string, c: char)
    requires c !in x
    ensures Split(x, c) == [x]
    decreases |x|
  {
    if x != [] {
      SplitWhole(x[1..], c);
      assert [x[0]] + x[1..] == x;
    }
  }

  /** Joining separator-free pieces with c and splitting on c gives the pieces back. */
  lemma {:induction false} SplitJoin(xs: seq<string>, c: char)
    requires |xs| >= 1
    requires forall i :: 0 <= i < |xs| ==> c !in xs[i]
    ensures Split(Join(xs, [c]), c) == xs
    decreases |xs|
  {
    if |xs| == 1 {
      SplitWhole(xs[0], c);
    } else {
      SplitJoin(xs[1..], c);
      SplitAfter(xs[0], c, Join(xs[1..], [c]));
      assert [xs[0]] + xs[1..] == xs;
    }
  }

  /** Joining a concatenation puts one separator between the two joined halves. */
  lemma {:induction false} JoinAppend(xs: seq<string>, ys: seq<string>, sep: string)
    requires |xs| >= 1 && |ys| >= 1
    ensures Join(xs + ys, sep) == Join(xs, sep) + sep + Join(ys, sep)
    decreases |xs|
  {
    if |xs| == 1 {
      assert (xs + ys)[1..] == ys;
    } else {
      assert (xs + ys)[1..] == xs[1..] + ys;
      JoinAppend(xs[1..], ys, sep);
    }
  }
}

=== FILE: transfer.dfy ===
/** Handling of the responses to one request (src/api.ts): the presigned
    download with its redirect chain, the proxied ("direct") download with its
    request composition, and the JSON POST used for the manifest.
    The network is replaced by the responses it produces, given as data; the
    output file is reduced to a flag saying whether it is on disk afterwards. */
module Transfer {
  import opened Base
  import opened Text
  import opened Types

  /** How one call of a transfer function settles: it resolves, or it
      rejects with an Error whose message is given. */
  datatype Outcome = Ok | Err(message: string)

  /** How piping the body of a 2xx response into the output file ends. */
  datatype Body = Finished | StreamError(message: string)

  /** One request of a presigned download as the client sees it: the request
      fails, or a response arrives with its status code, its Location header
      and the way piping its body ends (read only for a 2xx status). */
  datatype Hop =
    | RequestError(message: string)
    | Reply(status: nat, location: Option<string>, body: Body)

  predicate Is2xx(status: nat) {
    200 <= status < 300
  }

  /** A response the presigned download follows: 301 or 302 with a non-empty
      Location header (section 15.4.2 and 15.4.3 of RFC 9110). */
  predicate IsRedirect(h: Hop) {
    h.Reply? && (h.status == 301 || h.status == 302) && IsSet(h.location)
  }

  /** The message of a presigned download that got a status it does not accept. */
  function HttpError(status: nat): string {
    "Download failed: HTTP " + NatToString(status)
  }

  /** How a presigned download ends on a response it does not follow. */
  function FinalOutcome(h: Hop): (o: Outcome)
    requires !IsRedirect(h)
    ensures o == Ok <==> h.Reply? && Is2xx(h.status) && h.body == Finished
    ensures h.Reply? && !Is2xx(h.status) ==> o == Err(HttpError(h.status))
    ensures h.RequestError? ==> o == Err(h.message)
    ensures h.Reply? && Is2xx(h.status) && h.body.StreamError? ==> o == Err(h.body.message)
  {
    match h
    case RequestError(m) => Err(m)
    case Reply(status, _, body) =>
      if Is2xx(status) then
        match body
        case Finished => Ok
        case StreamError(m) => Err(m)
      else Err(HttpError(status))
  }

  /** The position of the first response that is not a redirect, where a
      redirect chain ends; None when every hop given is a redirect. */
  function FinalHop(hops: seq<Hop>): (k: Option<nat>)
    ensures k.Some? ==> k.value < |hops| && !IsRedirect(hops[k.value])
    ensures k.Some? ==> forall i :: 0 <= i < k.value ==> IsRedirect(hops[i])
    ensures k.None? ==> forall i :: 0 <= i < |hops| ==> IsRedirect(hops[i])
    decreases |hops|
  {
    if hops == [] then None
    else if !IsRedirect(hops[0]) then Some(0)
    else match FinalHop(hops[1..])
      case None => None
      case Some(j) => Some(j + 1)
  }

  /** What a presigned download did: how it settled (None: the hops given ran
      out while a redirect was being followed), the URLs it requested in
      order, and whether the output file is on disk at the end. */
  datatype PresignedRun = PresignedRun(outcome: Option<Outcome>, urls: seq<string>, present: bool)

  /** `downloadFileFromPresignedUrl(url, outputPath)` answered by `hops`, one
      per request. Every request first (re)creates the output file. A
      followed redirect deletes it and starts over at the Location; a 2xx
      response is piped into it; any other status, a failed request or a
      failed stream deletes it and rejects. */
  function DownloadFromPresignedUrl(url: string, hops: seq<Hop>): (run: PresignedRun)
    ensures |run.urls| == (match FinalHop(hops) case Some(k) => k + 1 case None => |hops| + 1)
    ensures run.urls[0] == url
    ensures forall i :: 0 < i < |run.urls| ==>
      IsRedirect(hops[i - 1]) && run.urls[i] == hops[i - 1].location.value
    ensures run.outcome == (match FinalHop(hops) case Some(k) => Some(FinalOutcome(hops[k])) case None => None)
    ensures run.present <==> run.outcome == Some(Ok) || run.outcome.None?
    decreases |hops|
  {
    if hops == [] then PresignedRun(None, [url], true)
    else if IsRedirect(hops[0]) then
      var next := DownloadFromPresignedUrl(hops[0].location.value, hops[1..]);
      PresignedRun(next.outcome, [url] + next.urls, next.present)
    else
      var o := FinalOutcome(hops[0]);
      PresignedRun(Some(o), [url], o == Ok)
  }

  /** A presigned download fails only with its own HTTP message or with the
      message of a failed request or stream of some hop. */
  lemma PresignedFailureMessage(url: string, hops: seq<Hop>, m: string)
    requires DownloadFromPresignedUrl(url, hops).outcome == Some(Err(m))
    ensures (exists s: nat :: m == HttpError(s))
      || (exists i :: 0 <= i < |hops| && hops[i] == RequestError(m))
      || (exists i :: 0 <= i < |hops| && hops[i].Reply? && hops[i].body == StreamError(m))
  {
    var k := FinalHop(hops).value;
    var h := hops[k];
    if h.Reply? && !Is2xx(h.status) {
      assert m == HttpError(h.status);
    }
  }

  // ---------------------------------------------------------------------
  // Proxied download

  /** A request as the model sees it: the API URL its path is resolved
      against, the path, the query parameters in order, and the headers. */
  datatype Request = Request(base: string, path: string, query: seq<(string, string)>, headers: seq<(string, string)>)

  /** The value of the first parameter called name. */
  function Lookup(query: seq<(string, string)>, name: string): (v: Option<string>)
    ensures v.Some? <==> exists i :: 0 <= i < |query| && query[i].0 == name
    decreases |query|
  {
    if query == [] then None
    else if query[0].0 == name then Some(query[0].1)
    else Lookup(query[1..], name)
  }

  function Keys(query: seq<(string, string)>): (ks: seq<string>)
    ensures |ks| == |query| && forall i :: 0 <= i < |query| ==> ks[i] == query[i].0
    decreases |query|
  {
    if query == [] then [] else [query[0].0] + Keys(query[1..])
  }

  /** Position i holds the first parameter called name. */
  predicate FirstNamed(query: seq<(string, string)>, name: string, i: nat)
    requires i < |query|
  {
    query[i].0 == name && forall j :: 0 <= j < i ==> query[j].0 != name
  }

  /** The parameters not called name, in their order. */
  function Without(query: seq<(string, string)>, name: string): (r: seq<(string, string)>)
    ensures forall p :: p in r <==> p in query && p.0 != name
    decreases |query|
  {
    if query == [] then []
    else if query[0].0 == name then Without(query[1..], name)
    else [query[0]] + Without(query[1..], name)
  }

  /** `searchParams.set(name, value)`: the first parameter called name takes
      the value and the others of that name go; with none, it is appended. */
  function SetParam(query: seq<(string, string)>, name: string, value: string): (r: seq<(string, string)>)
    ensures Lookup(r, name) == Some(value)
    ensures forall p :: p in r && p.0 == name ==> p.1 == value
    ensures Without(r, name) == Without(query, name)
    ensures Lookup(query, name).None? ==> r == query + [(name, value)]
    decreases |query|
  {
    if query == [] then [(name, value)]
    else if query[0].0 == name then
      WithoutTwice(query[1..], name);
      [(name, value)] + Without(query[1..], name)
    else [query[0]] + SetParam(query[1..], name, value)
  }

  /** When the name is already there, exactly one parameter of that name remains. */
  lemma {:induction false} SetParamOnce(query: seq<(string, string)>, name: string, value: string)
    requires Lookup(query, name).Some?
    ensures |SetParam(query, name, value)| == |Without(SetParam(query, name, value), name)| + 1
    decreases |query|
  {
    var r := SetParam(query, name, value);
    if query[0].0 == name {
      assert r[1..] == Without(query[1..], name);
      WithoutTwice(query[1..], name);
    } else {
      SetParamOnce(query[1..], name, value);
      assert r[1..] == SetParam(query[1..], name, value);
    }
  }

  /** When the name is already there, the parameters before its first
      occurrence stay as they were, and that occurrence takes the value. */
  lemma {:induction false} SetParamFirst(query: seq<(string, string)>, name: string, value: string, i: nat)
    requires i < |query| && FirstNamed(query, name, i)
    ensures var r := SetParam(query, name, value);
      i < |r| && r[..i] == query[..i] && r[i] == (name, value)
    decreases i
  {
    if i > 0 {
      var rest := query[1..];
      FirstNamedTail(query, name, i);
      SetParamFirst(rest, name, value, i - 1);
      var tail := SetParam(rest, name, value);
      assert SetParam(query, name, value) == [query[0]] + tail;
      PrefixStep(query, SetParam(query, name, value), (name, value), tail, i);
    }
  }

  lemma FirstNamedTail(query: seq<(string, string)>, name: string, i: nat)
    requires 0 < i < |query| && FirstNamed(query, name, i)
    ensures query[0].0 != name && FirstNamed(query[1..], name, i - 1)
  {
    var rest := query[1..];
    forall j | 0 <= j < i - 1
      ensures rest[j].0 != name
    {
      assert rest[j] == query[j + 1];
    }
  }

  /** Putting back the head: a tail that agrees with q's tail before i - 1
      and holds x there gives a list that agrees with q before i and holds x at i. */
  lemma PrefixStep<X>(q: seq<X>, r: seq<X>, x: X, tail: seq<X>, i: nat)
    requires 0 < i < |q| && r == [q[0]] + tail
    requires i - 1 < |tail| && tail[..i - 1] == q[1..][..i - 1] && tail[i - 1] == x
    ensures i < |r| && r[..i] == q[..i] && r[i] == x
  {
    assert r[..i] == [q[0]] + tail[..i - 1];
    assert q[..i] == [q[0]] + q[1..][..i - 1];
  }

  /** Dropping the parameters called name a second time changes nothing. */
  lemma {:induction false} WithoutTwice(query: seq<(string, string)>, name: string)
    ensures Without(Without(query, name), name) == Without(query, name)
    decreases |query|
  {
    if query != [] {
      WithoutTwice(query[1..], name);
      if query[0].0 != name {
        assert ([query[0]] + Without(query[1..], name))[1..] == Without(query[1..], name);
      }
    }
  }

  lemma {:induction false} LookupConcat(q: seq<(string, string)>, r: seq<(string, string)>, name: string)
    ensures Lookup(q + r, name) == if Lookup(q, name).Some? then Lookup(q, name) else Lookup(r, name)
    decreases |q|
  {
    if q == [] {
      assert q + r == r;
    } else {
      assert (q + r)[1..] == q[1..] + r;
      LookupConcat(q[1..], r, name);
    }
  }

  lemma KeysConcat(q: seq<(string, string)>, r: seq<(string, string)>)
    ensures Keys(q + r) == Keys(q) + Keys(r)
  {
    var joined, parts := Keys(q + r), Keys(q) + Keys(r);
    forall i | 0 <= i < |joined|
      ensures joined[i] == parts[i]
    {
      if i < |q| {
        assert (q + r)[i] == q[i];
      } else {
        assert (q + r)[i] == r[i - |q|];
      }
    }
  }

  /** The query parameter a resolver contributes: one, when the resolver is set. */
  function ResolverParam(name: string, v: Option<string>): seq<(string, string)> {
    if IsSet(v) then [(name, v.value)] else []
  }

  /** The query of a proxied download, in the order the parameters are set. */
  function DirectQuery(params: DeploymentParams): (q: seq<(string, string)>)
    ensures 1 <= |q| <= 4 && q[0] == ("repository", params.repository)
    ensures forall i :: 1 <= i < |q| ==> q[i].1 != ""
  {
    [("repository", params.repository)] + ResolverParam("alias", params.alias)
      + ResolverParam("commitSha", params.commitSha) + ResolverParam("branch", params.branch)
  }

  /** What a lookup finds in the query: the repository always, a resolver
      exactly when it is set, and nothing else, so never the API key. */
  function Expected(params: DeploymentParams, name: string): Option<string> {
    if name == "repository" then Some(params.repository)
    else if name == "alias" then (if IsSet(params.alias) then params.alias else None)
    else if name == "commitSha" then (if IsSet(params.commitSha) then params.commitSha else None)
    else if name == "branch" then (if IsSet(params.branch) then params.branch else None)
    else None
  }

  /** The proxied query names the repository first, then each resolver that
      is set, in the order alias, commitSha, branch. */
  lemma DirectQueryKeys(params: DeploymentParams)
    ensures Keys(DirectQuery(params)) == ["repository"] + (if IsSet(params.alias) then ["alias"] else [])
      + (if IsSet(params.commitSha) then ["commitSha"] else []) + (if IsSet(params.branch) then ["branch"] else [])
  {
    var r := [("repository", params.repository)];
    var a := ResolverParam("alias", params.alias);
    var c := ResolverParam("commitSha", params.commitSha);
    var b := ResolverParam("branch", params.branch);
    KeysConcat(r, a);
    KeysConcat(r + a, c);
    KeysConcat(r + a + c, b);
  }

  /** A resolver's parameter is found under its own name only, and only when set. */
  lemma ResolverLookup(key: string, v: Option<string>, name: string)
    ensures Lookup(ResolverParam(key, v), name) == if name == key && IsSet(v) then v else None
  {
  }

  /** A lookup of any name in the proxied query finds what Expected says, so
      the API key is never a parameter. */
  lemma DirectQueryLookup(params: DeploymentParams, name: string)
    ensures Lookup(DirectQuery(params), name) == Expected(params, name)
  {
    var r := [("repository", params.repository)];
    var a := ResolverParam("alias", params.alias);
    var c := ResolverParam("commitSha", params.commitSha);
    var b := ResolverParam("branch", params.branch);
    LookupConcat(r, a, name);
    LookupConcat(r + a, c, name);
    LookupConcat(r + a + c, b, name);
    ResolverLookup("alias", params.alias, name);
    ResolverLookup("commitSha", params.commitSha, name);
    ResolverLookup("branch", params.branch, name);
  }

  /** A name no parameter carries is not found. */
  lemma NotSetYet(query: seq<(string, string)>, name: string)
    requires forall i :: 0 <= i < |query| ==> query[i].0 != name
    ensures Lookup(query, name).None?
  {
  }

  /** `if (v) url.searchParams.set(name, v)` on a query without that name. */
  method SetResolver(query: seq<(string, string)>, name: string, v: Option<string>)
    returns (r: seq<(string, string)>)
    requires forall i :: 0 <= i < |query| ==> query[i].0 != name
    ensures r == query + ResolverParam(name, v)
  {
    r := query;
    if IsSet(v) {
      NotSetYet(query, name);
      r := SetParam(query, name, v.value);
    }
  }

  /** The request `downloadFileDirect` sends: the file path under /api/files/,
      the repository and then every resolver that is set as query
      parameters, and the API key in the X-API-Key header. */
  method BuildDirectRequest(apiUrl: string, apiKey: string, filePath: string, params: DeploymentParams)
    returns (req: Request)
    ensures req.base == apiUrl
    ensures req.path == "/api/files/" + filePath
    ensures req.headers == [("X-API-Key", apiKey)]
    ensures req.query == DirectQuery(params)
  {
    var query: seq<(string, string)> := [];
    query := SetParam(query, "repository", params.repository);
    query := SetResolver(query, "alias", params.alias);
    query := SetResolver(query, "commitSha", params.commitSha);
    query := SetResolver(query, "branch", params.branch);
    req := Request(apiUrl, "/api/files/" + filePath, query, [("X-API-Key", apiKey)]);
  }

  /** The answer to a proxied download: the request fails, or a response
      arrives with a status and the way piping its body ends. */
  datatype DirectReply = NetworkFailure(message: string) | Answer(status: nat, body: Body)

  /** What a proxied download did: how it settled and whether the output file
      is on disk at the end. */
  datatype DirectRun = DirectRun(outcome: Outcome, present: bool)

  /** The message of a failed proxied download, which names the file. */
  function DirectError(filePath: string, detail: string): string {
    "Download failed for " + filePath + ": " + detail
  }

  /** `downloadFileDirect` answered by `reply`. Redirects are not followed:
      any status outside 2xx is a failure. */
  function DownloadFileDirect(filePath: string, reply: DirectReply): (run: DirectRun)
    ensures run.outcome == Ok <==> reply.Answer? && Is2xx(reply.status) && reply.body == Finished
    ensures run.present <==> run.outcome == Ok
    ensures reply.Answer? && !Is2xx(reply.status) ==>
      run.outcome == Err(DirectError(filePath, "HTTP " + NatToString(reply.status)))
    ensures reply.NetworkFailure? ==> run.outcome == Err(DirectError(filePath, reply.message))
    ensures reply.Answer? && Is2xx(reply.status) && reply.body.StreamError? ==>
      run.outcome == Err(reply.body.message)
  {
    match reply
    case NetworkFailure(m) => DirectRun(Err(DirectError(filePath, m)), false)
    case Answer(status, body) =>
      if Is2xx(status) then
        match body
        case Finished => DirectRun(Ok, true)
        case StreamError(m) => DirectRun(Err(m), false)
      else DirectRun(Err(DirectError(filePath, "HTTP " + NatToString(status))), false)
  }

  // ---------------------------------------------------------------------
  // JSON POST

  /** The answer to a POST: the request fails, or a response arrives with a
      status and its body in the chunks it was received in. */
  datatype ApiReply = ApiRequestError(message: string) | ApiResponse(status: nat, chunks: seq<string>)

  /** The chunks of a body joined in arrival order. */
  function Concat(chunks: seq<string>): string
    decreases |chunks|
  {
    if chunks == [] then "" else Concat(chunks[..|chunks| - 1]) + chunks[|chunks| - 1]
  }

  /** The body of a concatenation of chunk lists is the two bodies one after the other. */
  lemma {:induction false} ConcatAppend(xs: seq<string>, ys: seq<string>)
    ensures Concat(xs + ys) == Concat(xs) + Concat(ys)
    decreases |ys|
  {
    if ys == [] {
      assert xs + ys == xs;
    } else {
      var both, init := xs + ys, ys[..|ys| - 1];
      assert both[..|both| - 1] == xs + init;
      assert both[|both| - 1] == ys[|ys| - 1];
      ConcatAppend(xs, init);
      assert Concat(both) == Concat(xs + init) + ys[|ys| - 1];
      assert Concat(ys) == Concat(init) + ys[|ys| - 1];
    }
  }

  /** Every chunk appears in the body, in its place: after the chunks that
      arrived before it and before those that arrived after it. */
  lemma ConcatSplit(chunks: seq<string>, k: nat)
    requires k < |chunks|
    ensures Concat(chunks) == Concat(chunks[..k]) + chunks[k] + Concat(chunks[k + 1..])
  {
    var upTo, after := chunks[..k + 1], chunks[k + 1..];
    assert chunks == upTo + after;
    ConcatAppend(upTo, after);
    assert upTo[..k] == chunks[..k];
    assert Concat(upTo) == Concat(chunks[..k]) + chunks[k];
  }

  /** How `postJson` settles on a complete response with the given status and
      body: the parsed value on 2xx when the body parses; the first 200
      characters of the body when it does not; the status and the first 500
      characters of the body for any other status. `parse` stands for
      `JSON.parse`. */
  function ClassifyResponse<T>(status: nat, body: string, parse: string -> Option<T>): (r: Result<T, string>)
    ensures r.Success? <==> Is2xx(status) && parse(body).Some?
    ensures r.Success? ==> r.value == parse(body).value
    ensures Is2xx(status) && parse(body).None? ==>
      r.error == "Failed to parse response: " + Prefix(body, 200)
    ensures !Is2xx(status) ==>
      r.error == "API request failed: HTTP " + NatToString(status) + " - " + Prefix(body, 500)
  {
    if Is2xx(status) then
      match parse(body)
      case Some(v) => Success(v)
      case None => Failure("Failed to parse response: " + Prefix(body, 200))
    else
      Failure("API request failed: HTTP " + NatToString(status) + " - " + Prefix(body, 500))
  }

  /** How `postJson` settles on a reply. */
  function ApiOutcome<T>(reply: ApiReply, parse: string -> Option<T>): (r: Result<T, string>)
    ensures reply.ApiRequestError? ==> r == Failure(reply.message)
    ensures r.Success? <==> reply.ApiResponse? && Is2xx(reply.status) && parse(Concat(reply.chunks)).Some?
    ensures r.Success? ==> r.value == parse(Concat(reply.chunks)).value
  {
    match reply
    case ApiRequestError(m) => Failure(m)
    case ApiResponse(status, chunks) => ClassifyResponse(status, Concat(chunks), parse)
  }

  /** What an error of `postJson` says before it quotes the body. */
  function ErrorLead(status: nat): string {
    if Is2xx(status) then "Failed to parse response: " else "API request failed: HTTP " + NatToString(status) + " - "
  }

  /** An error of `postJson` quotes at most 500 characters of the body. */
  lemma ErrorQuotesBoundedBody<T>(status: nat, body: string, parse: string -> Option<T>)
    requires ClassifyResponse(status, body, parse).Failure?
    ensures exists q :: (|q| <= 500 && q <= body &&
      ClassifyResponse(status, body, parse).error == ErrorLead(status) + q)
  {
    if Is2xx(status) {
      var q := Prefix(body, 200);
      assert |q| <= 500 && q <= body;
    } else {
      var q := Prefix(body, 500);
      assert |q| <= 500 && q <= body;
    }
  }

  /** `postJson`: collects the chunks of the response, then classifies it. */
  method PostJson<T>(reply: ApiReply, parse: string -> Option<T>) returns (r: Result<T, string>)
    ensures r == ApiOutcome(reply, parse)
  {
    match reply {
      case ApiRequestError(m) =>
        r := Failure(m);
      case ApiResponse(status, chunks) =>
        var body := "";
        var k := 0;
        while k < |chunks|
          invariant 0 <= k <= |chunks|
          invariant body == Concat(chunks[..k])
        {
          body := body + chunks[k];
          k := k + 1;
          assert chunks[..k][..k - 1] == chunks[..k - 1];
        }
        assert chunks[..k] == chunks;
        r := ClassifyResponse(status, body, parse);
    }
  }

  /** The manifest request: where it goes (a path resolved against the API
      URL), what it carries and who it claims to be. */
  datatype ManifestCall = ManifestCall(base: string, path: string, body: PrepareRequest, headers: seq<(string, string)>)

  const PREPARE_PATH := "/api/deployments/prepare-batch-download"

  /** `requestPrepareBatchDownload`: one POST of the request, no retry. */
  method RequestPrepareBatchDownload(apiUrl: string, apiKey: string, request: PrepareRequest, reply: ApiReply,
                                     parse: string -> Option<Manifest>)
    returns (call: ManifestCall, r: Result<Manifest, string>)
    ensures call.base == apiUrl && call.path == PREPARE_PATH && call.body == request
    ensures Lookup(call.headers, "X-API-Key") == Some(apiKey)
    ensures Lookup(call.headers, "Content-Type") == Some("application/json")
    ensures r == ApiOutcome(reply, parse)
  {
    call := ManifestCall(apiUrl, PREPARE_PATH, request, [("Content-Type", "application/json"), ("X-API-Key", apiKey)]);
    r := PostJson(reply, parse);
  }
}

=== FILE: types.dfy ===
/** The records that pass between the components (dist/types.d.ts). An
    optional TypeScript field (`alias?: string`) is an Option; numbers that
    count bytes or files are naturals. */
module Types {
  import opened Base

  /** Configuration of one run (`ActionInputs`). */
  datatype ActionInputs = ActionInputs(
    apiUrl: string,
    apiKey: string,
    sourcePath: string,
    alias: Option<string>,
    commitSha: Option<string>,
    branch: Option<string>,
    outputPath: string,
    repository: string,
    overwrite: bool,
    summary: bool)

  /** One entry of the manifest (`DownloadFileInfo`). */
  datatype FileInfo = FileInfo(path: string, size: nat, downloadUrl: string)

  /** Body of the manifest request (`PrepareBatchDownloadRequest`). */
  datatype PrepareRequest = PrepareRequest(
    repository: string,
    path: string,
    alias: Option<string>,
    commitSha: Option<string>,
    branch: Option<string>)

  /** The manifest (`PrepareBatchDownloadResponse`). */
  datatype Manifest = Manifest(
    presignedUrlsSupported: bool,
    commitSha: string,
    isPublic: bool,
    files: seq<FileInfo>)

  /** What a run returns to its caller (`DownloadResult`). */
  datatype DownloadResult = DownloadResult(
    commitSha: string,
    fileCount: nat,
    totalSize: nat,
    files: seq<string>)

  /** The deployment parameters a proxied download sends along. */
  datatype DeploymentParams = DeploymentParams(
    repository: string,
    alias: Option<string>,
    commitSha: Option<string>,
    branch: Option<string>)

  /** JavaScript truthiness of an optional string: present and not empty. */
  predicate IsSet(s: Option<string>) {
    s.Some? && s.value != ""
  }
}
